=== FILE: README.md ===
# GPA calculator and submission store, modelled in Dafny

The system is a small web application in three parts:

- A browser page (`web/app.js`). A student enters courses with a unit count and a percentage score, and picks a national grading scale. The page computes the grade point average and posts the result.
- A write endpoint (`api/submissions/index.js`). It stores the posted submission and its course rows in one SQL transaction.
- A read endpoint (`api/getSubmission/index.js`). It returns a stored submission together with every course row whose student key matches the one derived from the submission's name and country, ordered by title.

The model covers:

- the eight grading scales and the score-to-grade lookup;
- the scale legend text and a parser that recovers the scale from it;
- the unit and quality-point totals and the GPA;
- the page actions (add, remove, reset) and the pre-submit validation;
- the payload the page posts and how it looks after JSON transport;
- both handlers, each as a pure function of the request, the database contents and an explicit fault parameter that says which database step fails.

JavaScript numbers are `JsNumber.Num`: a finite real, NaN, or a signed infinity. A nullable SQL column is an `Option`.

Modules:

- `Wrappers`: `Option`.
- `Text`: JavaScript `trim`, ASCII `toLowerCase`, number printing and parsing, and `join` and split on ", ".
- `JsNumber`: `Num` and the `Number(x) || 0` coercion.
- `Scales`: the tables, `gradeFromScore`, `maxPoints` and `scaleSummaryText`.
- `Client`: the page state, its actions and `serializeState`.
- `Validation`: `validate()`.
- `Stats`: the totals and GPA part of `renderStats`.
- `Store`: the two tables and the student key.
- `TitleOrder`: `ORDER BY Title`.
- `SubmitHandler` and `FetchHandler`: the two endpoints.
- `ReadAfterWrite`: the two endpoints composed, with the finding below.
- `EndToEnd`: from the page state to the database and back.

## Model

| member | source | states |
|---|---|---|
| Scales.CountryNameRoundTrip | web/app.js:5-75 | every scale key is a non-empty name, and looking the name up gives back the same country, hence the same scale |
| Scales.ScalesWellFormed | web/app.js:5-75 | every table is non-empty and strictly descending by minimum; its last band starts at 0; every minimum is at most 100; no letter is the "—" marker. So the descending sort in `gradeFromScore` and `scaleSummaryText` leaves each table as it is |
| Scales.ScaleLettersPlain | web/app.js:5-75 | no grade letter contains ',', '≥' or '→', so the legend text can be split back into bands |
| Scales.MaxTenths | web/app.js:103 | the largest points value of a table: no band exceeds it and some band attains it |
| Scales.MaxPoints | web/app.js:103 | `maxPoints()` bounds the points of every band of the selected scale and is attained by one of them |
| Scales.FindBandIsBest | web/app.js:108-110 | on a descending table, the first band whose minimum the score reaches is the band with the highest such minimum |
| Scales.GradeIn | web/app.js:105-111 | on a well-formed table, the result is "—"/0 exactly when the score is not a finite number in [0, 100]; otherwise the points are at most the table's maximum |
| Scales.GradeInIsBestBand | web/app.js:108-110 | for an in-range score, the grade is that of the band with the highest minimum not above the score |
| Scales.GradeFromScore | web/app.js:105-111 | "—"/0 exactly for NaN, infinite, negative or above-100 scores; every in-range score gets a real band |
| Scales.GradeFromScoreIsBest | web/app.js:108-110 | an in-range score gets the band with the highest minimum the score reaches |
| Scales.GradeAtMostMax | web/app.js:103-111 | no score earns more points than `maxPoints()` |
| Scales.BandBoundaries | web/app.js:108-110 | every score from a band's minimum up to (not including) the next band's minimum gets exactly that band |
| Scales.NigeriaBoundaryExample | web/app.js:7-8 | on the Nigerian scale, 70 is an A worth 5.0 and 69 is a B worth 4.0 |
| Scales.LegendEntryExamples | web/app.js:113-116 | the legend text the page stores: the Nigerian top band reads "A≥70→5" and its last "F≥0→0" (whole points print without a decimal point), and the US plus/minus bands read "A+≥97→4.3" and "A-≥90→3.7" |
| Scales.SummaryRoundTrip | web/app.js:113-116 | for a non-empty table with plain letters, parsing the legend text "L≥min→pts, …" gives back the table |
| Scales.ScaleLegendRoundTrip | web/app.js:113-116 | the legend of every scale parses back to that scale, so the stored `ScaleLegend` determines the scale |
| Stats.UnitsCountCountedRows | web/app.js:160-169 | total units are never negative, and they are zero exactly when no row has finite positive units and a finite score |
| Stats.TotalsDominated | web/app.js:160-169 | when per-row quality is between 0 and a cap, total quality is between 0 and the capped total, and the units agree |
| Stats.FlatTotals | web/app.js:160-169 | with a flat m points per unit, total quality is m times total units |
| Stats.TotalsBounded | web/app.js:160-169 | quality points are between 0 and m times the units when no row earns more than m per unit |
| Stats.TotalsAppend | web/app.js:160-169 | the totals of two row lists joined together are the sums of their totals |
| Stats.UncountedRowChangesNothing | web/app.js:163 | a row with NaN, infinite or non-positive units, or a non-finite score, changes neither total, wherever it sits |
| Stats.SwapRowsKeepsTotals | web/app.js:160-169 | swapping two adjacent rows leaves both totals unchanged |
| Stats.PointlessRowAddsUnitsOnly | web/app.js:163-167 | a counted row earning 0 points adds its units and no quality |
| Stats.WeightedDominated | web/app.js:166 | if every score earns between 0 and m points, each row's `unit * points` is between 0 and m times its units |
| Stats.UnearnedRowAddsUnitsOnly | web/app.js:163-167 | a counted row whose score earns no points still adds its units |
| Stats.GpaWith | web/app.js:171 | the GPA lies between 0 and the per-unit cap; it is 0 when no row counts; otherwise GPA × units = quality |
| Stats.Earned | web/app.js:164-166 | the points a score earns are between 0 and `maxPoints()`; an out-of-range score earns 0; a score in [0, 100] earns the points of the best band it reaches on the selected scale |
| Stats.PointsOfBestBand | web/app.js:164-166 | the per-score points `TotalsOf` weighs rows with are, for a score in [0, 100], the points of the best band it reaches on the selected scale |
| Stats.CountedRowAdds | web/app.js:163-167 | for any per-row gain, appending a counted row adds exactly its units to the units and its gain to the quality points |
| Stats.WeightedRowAdds | web/app.js:163-167 | for any per-score points, appending a counted row adds its units, and its units times the points of its score |
| Stats.TotalsOfAddsRow | web/app.js:160-169 | the inline `reduce` of `renderStats()` on the selected scale: each counted row appended adds its units, and its units times the points `gradeFromScore` gives its score |
| Stats.PointsOfBounded | web/app.js:103-111 | the maximum points of a scale are not negative and bound the points of every score |
| Stats.Gpa | web/app.js:171 | the displayed GPA is between 0 and `maxPoints()` of the selected scale, and 0 when no row counts |
| Stats.OutOfRangeScoreAddsUnitsOnly | web/app.js:163-167 | a row with positive units and a finite score outside [0, 100] adds its units and no quality |
| Stats.ResetAllGpaIsZero | web/app.js:180-185 | after a reset the totals are 3 units and 0 quality points, and the GPA is 0 |
| Client.AddCourse | web/app.js:178 | appends one row (no title, 3 units, score 0) and keeps every earlier row and the name and scale |
| Client.WithoutId | web/app.js:179 | the filter keeps every row with another id, in order, and only rows of the input; it drops exactly the rows with the id |
| Client.RemoveCourse | web/app.js:179 | no row with the id remains, every other row stays in its order, and nothing else changes |
| Client.RemoveAbsentId | web/app.js:179 | removing an id no row carries changes nothing |
| Client.RemoveCourseIdempotent | web/app.js:179 | removing the same id twice equals removing it once |
| Client.RemoveUndoesAdd | web/app.js:178-179 | removing the freshly added row, under an id no other row has, restores the earlier state |
| Client.WithoutIdAppend | web/app.js:179 | the filter distributes over concatenation |
| JsNumber.OrZero | web/app.js:193-194 | `Number(x) \|\| 0` turns NaN into 0 and keeps every other number, infinities included |
| Client.SerializeState | web/app.js:187-198 | the payload keeps the name; its country parses back to the selected scale and its legend to that scale's table; one course per row in order, same title, NaN numbers replaced by 0 and others kept |
| Validation.CourseProblem | web/app.js:204-206 | a row passes exactly when its title is not blank, its units are a number above 0 and its score is a number in [0, 100]; otherwise the first of these checks it fails is the one reported, each named exactly when the earlier ones pass and it fails |
| Validation.Validate | web/app.js:200-209 | answers "ready" exactly when the name is not blank, there is a row and every row passes. Otherwise it reports the first failing rule, in the order name, row count, then the first failing row |
| Validation.ResetAllNotValid | web/app.js:180-185 | a freshly reset page never passes validation |
| Validation.ValidStateSerializesExactly | web/app.js:187-198 | for a state that passes validation, every posted unit and score equals the row's own number, and every score is finite |
| Text.TrimEmptyIffBlank | web/app.js:201 | `s.trim()` is empty exactly when `s` consists of whitespace |
| Text.TrimIgnoresPadding | api/getSubmission/index.js:42 | surrounding whitespace does not change the trimmed text |
| Text.TrimLower | api/getSubmission/index.js:42 | trimming and lower-casing can be applied in either order |
| Store.StudentKeyOf | api/getSubmission/index.js:42 | the key is the normalised name, then '\|', then the normalised country, with the '\|' right after the name part |
| Store.KeyPartOfNull | api/getSubmission/index.js:42 | a NULL column and a blank string give the same, empty key part |
| Store.KeyPartIgnoresPaddingAndCase | api/getSubmission/index.js:42 | padding and ASCII case do not change a key part |
| Store.StudentKeyIgnoresPaddingAndCase | api/getSubmission/index.js:42 | names and countries that differ only in padding and ASCII case give the same key |
| Store.StudentKeySeparates | api/getSubmission/index.js:42 | when neither normalised name contains '\|', equal keys mean equal normalised names and equal normalised countries |
| Store.StudentKeyCollision | api/getSubmission/index.js:42 | without that proviso, ("a\|b", "c") and ("a", "b\|c") are different students with the same key |
| Store.KeyedViews | api/getSubmission/index.js:45-48 | the selected rows are exactly the views of rows whose key equals the requested one; a NULL key never matches |
| Store.KeyedViewsAppend | api/getSubmission/index.js:48 | the key filter distributes over concatenation |
| Store.KeyedViewsOfOtherKeys | api/getSubmission/index.js:48 | rows with a NULL or different key contribute nothing |
| Store.KeyedViewsOfKeyed | api/getSubmission/index.js:48 | rows that all carry the key are all returned, in order |
| TitleOrder.TitleLeTotal | api/getSubmission/index.js:49 | any two titles are comparable |
| TitleOrder.TitleLeTransitive | api/getSubmission/index.js:49 | the title order is transitive |
| TitleOrder.TitleLeAntisymmetric | api/getSubmission/index.js:49 | two titles ordered both ways are equal |
| TitleOrder.InsertByTitle | api/getSubmission/index.js:49 | inserting into a title-ordered list keeps it ordered and adds exactly that element |
| TitleOrder.SortByTitle | api/getSubmission/index.js:49 | the result is ordered by title and is a permutation of the input |
| TitleOrder.SortSortedIsIdentity | api/getSubmission/index.js:49 | rows already in title order come back unchanged |
| SubmitHandler.FieldKeepsEmptyText | api/submissions/index.js:16 | unlike `x \|\| d`, the destructuring default keeps an explicit empty string: `""` is stored as `""`, while a missing field takes the default |
| SubmitHandler.CourseRowOf | api/submissions/index.js:40-48 | the course row belongs to the new id and has no student key; a missing title becomes ""; NaN units or scores become 0; other numbers are stored as given, with no range check |
| SubmitHandler.StageCourses | api/submissions/index.js:39-49 | the loop produces all rows exactly when no element is `null`/`undefined` and no insert in range fails; the rows are the per-course rows, in order |
| SubmitHandler.Post | api/submissions/index.js:14-62 | 400 exactly when `courses` is not a non-empty array; 201 with the new id exactly when no step fails; then the store gains exactly the submission row and one course row per course, appended. Every other answer leaves the store unchanged |
| SubmitHandler.AllOrNothing | api/submissions/index.js:22-56 | after any post, the store is either unchanged or has exactly one more submission and one more course row per posted course |
| SubmitHandler.BadRequestIgnoresDatabase | api/submissions/index.js:17-20 | a rejected body gets 400 whatever the database would do, and nothing is written |
| SubmitHandler.CreatedRowsBelongToSubmission | api/submissions/index.js:39-48 | every course row a successful post writes refers to the new submission and has a NULL student key |
| FetchHandler.FindSubmission | api/getSubmission/index.js:23-33 | finds nothing exactly when no stored id matches; otherwise finds the first match |
| FetchHandler.CoursesFor | api/getSubmission/index.js:43-50 | the course list is in title order and is a permutation of exactly the rows carrying the key |
| FetchHandler.Get | api/getSubmission/index.js:13-68 | 400 exactly for a missing id or one that is not 36 hex digits and dashes; 404 exactly when no submission matches and the lookup ran; 200 exactly when one matches and no query fails, echoing the first match's fields and its student's courses |
| FetchHandler.InvalidIdIgnoresDatabase | api/getSubmission/index.js:15-19 | a malformed id gets 400 whatever the database holds or does |
| FetchHandler.IdCaseIrrelevant | api/getSubmission/index.js:23-33 | ids that differ only in the case of their hex digits get the same answer |
| FetchHandler.FindSameId | api/getSubmission/index.js:32 | the lookup finds the same row for ids equal up to case |
| FetchHandler.SameStudentSameCourses | api/getSubmission/index.js:42-50 | two submissions whose student keys agree are answered with the same course list |
| ReadAfterWrite.FindAppended | api/getSubmission/index.js:23-33 | after a post under a fresh id, the lookup finds the new submission |
| ReadAfterWrite.PostKeyed | api/submissions/index.js:39-48 | the corrected write: same answer as `Post`, but each course row carries the key the read endpoint derives from the new submission |
| ReadAfterWrite.PostAddsNoKeyedRow | api/submissions/index.js:46-47 | as written, a successful post leaves the rows selected under every student key exactly as they were |
| ReadAfterWrite.PostedCoursesAreNotReadBack | api/submissions/index.js:46-47 | as written, reading a fresh submission back right after the post returns the course list from before the post, without any posted course |
| ReadAfterWrite.ReadAfterWriteLosesCourses | api/submissions/index.js:46-47 | as written, on an empty database: posting one course for "Ada" gives 201 and stores one course row, yet the read returns that submission with no courses |
| ReadAfterWrite.KeyedPostIsReadBack | api/getSubmission/index.js:42-62 | with the corrected write, the new submission reads back with its stored fields. Its course list is in title order and holds the student's earlier courses plus exactly the posted ones |
| ReadAfterWrite.FirstKeyedPostIsReadBack | api/getSubmission/index.js:42-62 | with the corrected write, a student's first submission reads back with exactly the posted courses, in title order |
| EndToEnd.BodyOf | web/app.js:217-221 | the posted body passes the endpoint's input check exactly when the payload has a course; no server default ever applies to its fields; every course arrives as an object with its title and finite numbers (a non-finite one as 0), so the insert loop completes unless the database fails |
| EndToEnd.ValidRowsReadBack | web/app.js:187-198 | the rows of a valid state, once posted, are stored as the page's own titles, units and scores, except that an infinite unit arrives as 0 |
| EndToEnd.ValidStateBody | web/app.js:187-198 | the body of a valid state passes the input check and completes the insert loop. It stores the name, country key and legend, and carries the page's rows |
| EndToEnd.ValidStateIsReadBack | web/app.js:211-232 | a valid page state posted under a fresh id, with the key filled in, is created and reads back with the same name, country and legend. For a student with no earlier rows it returns the page's rows in title order, with their titles, units and scores, except that a row whose unit is +Infinity reads back with unit 0 |

## Left out

- The page's DOM, rendering, toasts, `sessionStorage` and the print page are not modelled. They hold no logic the totals depend on.
- `toFixed(2)` formatting and IEEE-754 rounding are not modelled: the arithmetic is exact over the reals.
- SubmitHandler.RawCourse: an element of `courses` that is a number, string or boolean is modelled as `CourseObject(None, NaN, NaN)`, which is what the handler reads from it (no properties); it is stored as a row with an empty title and 0 units and score, and the request still gets 201.
- Stats.Gpa: the country-level contract omits "GPA × units = quality"; `Stats.GpaWith`, which it instantiates, states it.
- `uid()` and the database-generated submission id are parameters (`freshId`, `newId`) and are not computed.
- `getPool`, the connection string, the SQL text, `CreatedAt` and the extraction of error messages and codes are not modelled. Any failing database step is one value of the `Fault` or `ReadFault` parameter, answered with 500.
- The `ping` endpoint is not modelled; it has no logic.
- Submission fingerprints, student aliases and de-duplication of courses are not modelled: nothing in the handlers' code implements them. The code stores every posted course and reads by the student key alone.
- Store.KeyPart: `toLowerCase` is modelled for ASCII letters only; other letters keep their case.
- Store.KeyedViews: the key comparison is exact string equality. SQL Server's default collation would also match keys that differ in case or trailing spaces.
- TitleOrder.SortByTitle: titles are ordered by code point, not by SQL Server collation. The order among equal titles is the stable one; SQL leaves it unspecified.
- `sql.Int` conversion of the unit and score is not modelled, so fractional or out-of-range numbers are stored as `Num`. Neither is `NVarChar` length truncation or a rejected insert.
- The read endpoint's id check is modelled exactly as the 36-character pattern. A string that passes it but is not a GUID is rejected by the driver; that is one of the `ReadFault` failures.
- Non-string `studentName`, `country` or `scaleLegend` values, non-string truthy titles, and `Number()` of arbitrary JSON values are not modelled. Fields are absent, null or strings, and numbers are `Num`.
- Negative zero is not distinguished from zero.
- Scales.Country: the page's country is always one of the eight keys of `SCALES`. The page stores whatever value the country selector reports (web/app.js:246). With an unknown key, `currentScale()` is undefined and `gradeFromScore`, `maxPoints` and `scaleSummaryText` throw; the model has no such state. For the same reason the `|| "nigeria"` default of `serializeState` (web/app.js:190) never applies in the model. The selector's options are not part of this model.
- Scales.ScaleOf: the tables are stored already sorted by descending minimum, and `Scales.ScalesWellFormed` proves that they are. So the model does not re-sort them where `gradeFromScore` and `scaleSummaryText` do.

## Findings

| source | as written | input that shows it | evidently intended | confidence | as-written member | corrected member |
|---|---|---|---|---|---|---|
| api/submissions/index.js:46-47 | course rows are inserted without `StudentKey`, but the read endpoint selects courses by `StudentKey` (api/getSubmission/index.js:48), so a NULL key never matches | on an empty database, post `{studentName: "Ada", courses: [{title: "Maths", unit: 3, score: 75}]}`; the answer is 201, then reading that id gives the submission with `courses: []` | the write stores each course with the key the read endpoint derives from the submission's name and country, so the posted courses are read back | medium, not executed: a database default or trigger, whose schema is not part of this model, could fill the column | ReadAfterWrite.ReadAfterWriteLosesCourses | ReadAfterWrite.KeyedPostIsReadBack |

=== FILE: client.dfy ===
/** The calculator page's state and the actions that edit it: adding,
    removing and resetting course rows, and turning the state into the
    payload that is posted to the submissions endpoint. */
module Client {

  import opened Wrappers
  import opened Text
  import opened JsNumber
  import opened Scales

  /** One course row of the form. `id` is the random key `uid()` produced;
      `unit` and `score` are what the number inputs hold (NaN when empty). */
  datatype Course = Course(id: string, title: string, unit: Num, score: Num)

  /** The page state: the student's name, the selected scale and the rows. */
  datatype State = State(studentName: string, country: Country, courses: seq<Course>)

  /** The row `addCourse` and `resetAll` create: no title, 3 units, score 0. */
  function BlankCourse(id: string): Course {
    Course(id, "", Finite(3.0), Finite(0.0))
  }

  /** `addCourse()`: appends one blank row; `freshId` stands for `uid()`. */
  function AddCourse(st: State, freshId: string): (r: State)
    ensures r.studentName == st.studentName && r.country == st.country
    ensures |r.courses| == |st.courses| + 1
    ensures r.courses[..|st.courses|] == st.courses
    ensures r.courses[|st.courses|] == BlankCourse(freshId)
  {
    st.(courses := st.courses + [BlankCourse(freshId)])
  }

  /** How many rows carry the key `id`. */
  function CountId(cs: seq<Course>, id: string): nat {
    if cs == [] then 0
    else (if cs[0].id == id then 1 else 0) + CountId(cs[1..], id)
  }

  /** `a` is `b` with some elements left out, the rest in their order. */
  ghost predicate IsSubsequence<T>(a: seq<T>, b: seq<T>) {
    if a == [] then true
    else if b == [] then false
    else if a[0] == b[0] then IsSubsequence(a[1..], b[1..])
    else IsSubsequence(a, b[1..])
  }

  /** `courses.filter(c => c.id !== id)`. */
  function WithoutId(cs: seq<Course>, id: string): (r: seq<Course>)
    ensures forall k :: 0 <= k < |r| ==> r[k].id != id
    ensures forall c :: c in cs && c.id != id ==> c in r
    ensures forall c :: c in r ==> c in cs
    ensures |r| == |cs| - CountId(cs, id)
    ensures IsSubsequence(r, cs)
  {
    if cs == [] then []
    else
      var rest := WithoutId(cs[1..], id);
      if cs[0].id == id then
        SubsequenceDropsHead(rest, cs);
        rest
      else
        [cs[0]] + rest
  }

  lemma SubsequenceDropsHead<T>(a: seq<T>, b: seq<T>)
    requires b != [] && IsSubsequence(a, b[1..])
    ensures IsSubsequence(a, b)
    decreases |a| + |b|
  {
    if a != [] && a[0] == b[0] {
      SubsequenceTail(a, b[1..]);
    }
  }

  lemma {:induction false} SubsequenceTail<T>(a: seq<T>, b: seq<T>)
    requires a != [] && IsSubsequence(a, b)
    ensures IsSubsequence(a[1..], b)
    decreases |a| + |b|
  {
    if b != [] {
      if a[0] == b[0] {
        SubsequenceDropsHead(a[1..], b);
      } else {
        SubsequenceTail(a, b[1..]);
        SubsequenceDropsHead(a[1..], b);
      }
    }
  }

  /** `removeCourse(id)`: drops every row with that key, keeps the others in order. */
  function RemoveCourse(st: State, id: string): (r: State)
    ensures r.studentName == st.studentName && r.country == st.country
    ensures forall k :: 0 <= k < |r.courses| ==> r.courses[k].id != id
    ensures forall c :: c in st.courses && c.id != id ==> c in r.courses
    ensures forall c :: c in r.courses ==> c in st.courses
    ensures |r.courses| == |st.courses| - CountId(st.courses, id)
    ensures IsSubsequence(r.courses, st.courses)
  {
    st.(courses := WithoutId(st.courses, id))
  }

  /** Removing a key that no row carries changes nothing. */
  lemma {:induction false} RemoveAbsentId(cs: seq<Course>, id: string)
    requires forall k :: 0 <= k < |cs| ==> cs[k].id != id
    ensures WithoutId(cs, id) == cs
  {
    if cs != [] {
      RemoveAbsentId(cs[1..], id);
      assert [cs[0]] + cs[1..] == cs;
    }
  }

  /** Removing the same key twice is the same as removing it once. */
  lemma RemoveCourseIdempotent(st: State, id: string)
    ensures RemoveCourse(RemoveCourse(st, id), id) == RemoveCourse(st, id)
  {
    RemoveAbsentId(WithoutId(st.courses, id), id);
  }

  /** Removing the row just added, under a key no other row had, restores
      the state it was added to. */
  lemma {:induction false} RemoveUndoesAdd(st: State, freshId: string)
    requires forall k :: 0 <= k < |st.courses| ==> st.courses[k].id != freshId
    ensures RemoveCourse(AddCourse(st, freshId), freshId) == st
  {
    WithoutIdAppend(st.courses, [BlankCourse(freshId)], freshId);
    RemoveAbsentId(st.courses, freshId);
    assert WithoutId([BlankCourse(freshId)], freshId) == [];
    assert st.courses + [] == st.courses;
  }

  /** Filtering distributes over concatenation. */
  lemma {:induction false} WithoutIdAppend(a: seq<Course>, b: seq<Course>, id: string)
    ensures WithoutId(a + b, id) == WithoutId(a, id) + WithoutId(b, id)
  {
    if a == [] {
      assert a + b == b;
    } else {
      assert (a + b)[0] == a[0];
      assert (a + b)[1..] == a[1..] + b;
      WithoutIdAppend(a[1..], b, id);
    }
  }

  /** `resetAll()`: empty name, the Nigerian scale, one blank row. */
  function ResetAll(freshId: string): (r: State)
    ensures r.studentName == [] && r.country == Nigeria
    ensures r.courses == [BlankCourse(freshId)]
  {
    State("", Nigeria, [BlankCourse(freshId)])
  }

  /** `x || d` for a string: the empty string is falsy. */
  function OrDefault(s: string, d: string): (r: string)
    ensures s != [] ==> r == s
    ensures s == [] ==> r == d
  {
    if s == [] then d else s
  }

  /** One course as posted. */
  datatype PayloadCourse = PayloadCourse(title: string, unit: Num, score: Num)

  /** The body `serializeState()` builds for the submissions endpoint. */
  datatype Payload = Payload(studentName: string, country: string, courses: seq<PayloadCourse>, scaleLegend: string)

  function SerializeCourse(c: Course): PayloadCourse {
    PayloadCourse(OrDefault(c.title, ""), OrZero(c.unit), OrZero(c.score))
  }

  function SerializeCourses(cs: seq<Course>): (r: seq<PayloadCourse>)
    ensures |r| == |cs|
    ensures forall i :: 0 <= i < |cs| ==> r[i] == SerializeCourse(cs[i])
  {
    if cs == [] then [] else [SerializeCourse(cs[0])] + SerializeCourses(cs[1..])
  }

  /** `serializeState()`: one payload course per row in row order, each number
      through `|| 0`, the country key defaulting to "nigeria", and the legend
      of the selected scale. */
  function SerializeState(st: State): (p: Payload)
    ensures p.studentName == st.studentName
    ensures CountryFromName(p.country) == Some(st.country)
    ensures ParseSummary(p.scaleLegend) == Some(ScaleOf(st.country))
    ensures |p.courses| == |st.courses|
    ensures forall i :: 0 <= i < |st.courses| ==>
      && p.courses[i].title == st.courses[i].title
      && !p.courses[i].unit.NaN? && !p.courses[i].score.NaN?
      && (st.courses[i].unit.NaN? ==> p.courses[i].unit == Finite(0.0))
      && (!st.courses[i].unit.NaN? ==> p.courses[i].unit == st.courses[i].unit)
      && (st.courses[i].score.NaN? ==> p.courses[i].score == Finite(0.0))
      && (!st.courses[i].score.NaN? ==> p.courses[i].score == st.courses[i].score)
  {
    CountryNameRoundTrip(st.country);
    ScaleLegendRoundTrip(st.country);
    Payload(
      OrDefault(st.studentName, ""),
      OrDefault(CountryName(st.country), "nigeria"),
      SerializeCourses(st.courses),
      ScaleSummaryText(st.country))
  }
}

=== FILE: endtoend.dfy ===
/** From the calculator page to the database and back: the payload
    `serializeState()` builds travels as JSON to the submissions endpoint,
    and the read endpoint later returns what was stored. */
module EndToEnd {

  import opened Wrappers
  import opened JsNumber
  import opened Scales
  import opened Client
  import opened Validation
  import opened Store
  import opened TitleOrder
  import opened SubmitHandler
  import opened FetchHandler
  import opened ReadAfterWrite

  /** A number after `JSON.stringify` and the server's `Number(...)`: a
      non-finite number is written as `null`, which reads back as 0. */
  function OverTheWire(n: Num): (r: Num)
    ensures r.Finite?
    ensures n.Finite? ==> r == n
    ensures !n.Finite? ==> r == Finite(0.0)
  {
    if n.Finite? then n else Finite(0.0)
  }

  function CourseOverTheWire(c: PayloadCourse): RawCourse {
    CourseObject(Some(c.title), OverTheWire(c.unit), OverTheWire(c.score))
  }

  /** The body the endpoint receives for a payload. It passes the input
      check exactly when the payload has a course; the handler's defaults
      never apply, since every field arrives; and every course arrives as
      an object with its title and with finite numbers, so the insert loop
      runs to the end when the database does not fail. */
  function BodyOf(p: Payload): (b: Body)
    ensures HasCourses(Some(b)) <==> |p.courses| > 0
    ensures b.courses.ArrayOf? && |b.courses.items| == |p.courses|
    ensures LoopCompletes(b.courses.items, NoFault)
    ensures forall id :: SubmissionOf(b, id).studentName == Some(p.studentName)
    ensures forall id :: SubmissionOf(b, id).country == Some(p.country)
    ensures forall id :: SubmissionOf(b, id).scaleLegend == Some(p.scaleLegend)
    ensures forall i :: 0 <= i < |b.courses.items| ==>
      && b.courses.items[i].CourseObject?
      && b.courses.items[i].title == Some(p.courses[i].title)
      && b.courses.items[i].unit.Finite? && b.courses.items[i].score.Finite?
      && b.courses.items[i].unit == OverTheWire(p.courses[i].unit)
      && b.courses.items[i].score == OverTheWire(p.courses[i].score)
  {
    Body(Given(p.studentName), Given(p.country), Given(p.scaleLegend),
         ArrayOf(seq(|p.courses|, i requires 0 <= i < |p.courses| => CourseOverTheWire(p.courses[i]))))
  }

  /** What the page expects to read back for a row. */
  function Expected(c: Course): CourseView {
    CourseView(c.title, OverTheWire(c.unit), c.score)
  }

  function ExpectedViews(cs: seq<Course>): (r: seq<CourseView>)
    ensures |r| == |cs|
    ensures forall i :: 0 <= i < |cs| ==> r[i] == Expected(cs[i])
  {
    seq(|cs|, i requires 0 <= i < |cs| => Expected(cs[i]))
  }

  /** The key the read endpoint derives for a page state. */
  function KeyOfState(st: State): string {
    StudentKeyOf(Some(st.studentName), Some(CountryName(st.country)))
  }

  /** The course rows a valid page state posts read back as the page
      expects them. */
  lemma ValidRowsReadBack(st: State, newId: string)
    requires Valid(st)
    ensures var items := BodyOf(SerializeState(st)).courses.items;
      && (forall i :: 0 <= i < |items| ==> items[i].CourseObject?)
      && PostedViews(items, newId) == ExpectedViews(st.courses)
  {
    var p := SerializeState(st);
    var items := BodyOf(p).courses.items;
    ValidStateSerializesExactly(st);
    forall i | 0 <= i < |items|
      ensures PostedViews(items, newId)[i] == ExpectedViews(st.courses)[i]
    {
      var c := st.courses[i];
      assert CourseProblem(c).None?;
      assert p.courses[i].title == c.title;
      assert items[i].title == Some(c.title);
      assert p.courses[i].unit == c.unit;
      assert items[i].unit == OverTheWire(c.unit);
      assert items[i].score == c.score;
      assert View(CourseRowOf(items[i], newId)) == Expected(c);
    }
  }

  /** The body a valid page state posts: accepted by the input check,
      every course an object, keyed like the page state, and carrying the
      rows as the page expects to read them back. */
  lemma ValidStateBody(st: State, newId: string)
    requires Valid(st)
    ensures var b := BodyOf(SerializeState(st));
      && HasCourses(Some(b))
      && LoopCompletes(b.courses.items, NoFault)
      && SubmissionOf(b, newId).studentName == Some(st.studentName)
      && SubmissionOf(b, newId).country == Some(CountryName(st.country))
      && SubmissionOf(b, newId).scaleLegend == Some(ScaleSummaryText(st.country))
      && KeyOfRow(SubmissionOf(b, newId)) == KeyOfState(st)
      && PostedViews(b.courses.items, newId) == ExpectedViews(st.courses)
  {
    var p := SerializeState(st);
    CountryNameRoundTrip(st.country);
    assert p.country == CountryName(st.country);
    ValidRowsReadBack(st, newId);
  }

  /** A page state that passes validation, posted with the key filled in
      under a fresh id, is created and reads back with the student's name,
      the country key, the scale legend and, for a student with no earlier
      courses, exactly the page's rows in title order (a unit too large to
      be finite arrives as 0). */
  lemma ValidStateIsReadBack(st: State, store: Store, newId: string)
    requires Valid(st) && FreshId(store, newId)
    requires forall i :: 0 <= i < |store.courses| ==> store.courses[i].studentKey != Some(KeyOfState(st))
    ensures
      var body := Some(BodyOf(SerializeState(st)));
      var o := PostKeyed(body, store, newId, NoFault);
      var r := Get(Some(newId), o.store, NoReadFault);
      && o.response == Created(newId)
      && r.Found?
      && r.studentName == Some(st.studentName)
      && r.country == Some(CountryName(st.country))
      && r.scaleLegend == Some(ScaleSummaryText(st.country))
      && SortedByTitle(r.courses)
      && multiset(r.courses) == multiset(ExpectedViews(st.courses))
  {
    var b := BodyOf(SerializeState(st));
    ValidStateBody(st, newId);
    assert PostKeyed(Some(b), store, newId, NoFault).response.Created?;
    FirstKeyedPostIsReadBack(Some(b), store, newId);
    KeyedPostIsReadBack(Some(b), store, newId);
  }
}

=== FILE: fetch.dfy ===
/** The read endpoint: checks the id in the route, looks the submission
    up, derives the student key from its name and country, and answers with
    the stored fields and every course row carrying that key, by title. */
module FetchHandler {

  import opened Wrappers
  import opened Text
  import opened Store
  import opened TitleOrder

  /** A character the id pattern `[0-9a-fA-F-]` admits. */
  predicate IsIdChar(c: char) {
    ('0' <= c <= '9') || ('a' <= c <= 'f') || ('A' <= c <= 'F') || c == '-'
  }

  /** `id && /^[0-9a-fA-F-]{36}$/.test(id)`: present, exactly 36 characters,
      each a hex digit or '-'. */
  predicate WellFormedId(id: Option<string>) {
    id.Some? && |id.value| == 36 && forall i :: 0 <= i < |id.value| ==> IsIdChar(id.value[i])
  }

  /** `WHERE Id = @Id` on a uniqueidentifier column: hex digits compare
      without regard to case. */
  predicate SameId(stored: string, requested: string) {
    Lower(stored) == Lower(requested)
  }

  /** The first submission whose id matches. */
  function FindSubmission(subs: seq<SubmissionRow>, id: string): (r: Option<nat>)
    ensures r.None? <==> forall i :: 0 <= i < |subs| ==> !SameId(subs[i].id, id)
    ensures r.Some? ==> r.value < |subs| && SameId(subs[r.value].id, id)
    ensures r.Some? ==> forall j :: 0 <= j < r.value ==> !SameId(subs[j].id, id)
  {
    if subs == [] then None
    else if SameId(subs[0].id, id) then Some(0)
    else match FindSubmission(subs[1..], id)
      case None => None
      case Some(i) => Some(i + 1)
  }

  /** What the database does on this call: the query that fails, if any. */
  datatype ReadFault = NoReadFault | ReadPoolFails | LookupFails | CoursesQueryFails

  datatype GetResponse =
    | Invalid
    | NotFound
    | Failed
    | Found(id: string, studentName: Option<string>, country: Option<string>,
            scaleLegend: Option<string>, courses: seq<CourseView>)

  function Status(r: GetResponse): (code: int)
    ensures code == 200 <==> r.Found?
    ensures code == 400 <==> r.Invalid?
    ensures code == 404 <==> r.NotFound?
    ensures code == 500 <==> r.Failed?
  {
    match r
    case Found(_, _, _, _, _) => 200
    case Invalid => 400
    case NotFound => 404
    case Failed => 500
  }

  /** The key of a stored submission. */
  function KeyOfRow(s: SubmissionRow): string {
    StudentKeyOf(s.studentName, s.country)
  }

  /** The course list for a key: the matching rows, ordered by title. */
  function CoursesFor(st: Store, key: string): (cs: seq<CourseView>)
    ensures SortedByTitle(cs)
    ensures multiset(cs) == multiset(KeyedViews(st.courses, key))
    ensures forall v :: v in cs <==>
      exists i :: 0 <= i < |st.courses| && st.courses[i].studentKey == Some(key) && View(st.courses[i]) == v
  {
    var r := SortByTitle(KeyedViews(st.courses, key));
    assert forall v :: v in r <==> v in multiset(r);
    assert forall v :: v in KeyedViews(st.courses, key) <==> v in multiset(KeyedViews(st.courses, key));
    r
  }

  /** The handler. `fault` is the database step that fails, if any. */
  function Get(id: Option<string>, st: Store, fault: ReadFault): (r: GetResponse)
    ensures r.Invalid? <==> !WellFormedId(id)
    ensures r.NotFound? <==>
      WellFormedId(id) && fault !in {ReadPoolFails, LookupFails} &&
      forall i :: 0 <= i < |st.submissions| ==> !SameId(st.submissions[i].id, id.value)
    ensures r.Found? <==>
      WellFormedId(id) && fault == NoReadFault &&
      exists i :: 0 <= i < |st.submissions| && SameId(st.submissions[i].id, id.value)
    ensures r.Found? ==>
      exists i :: 0 <= i < |st.submissions| && SameId(st.submissions[i].id, id.value) &&
        (forall j :: 0 <= j < i ==> !SameId(st.submissions[j].id, id.value)) &&
        var s := st.submissions[i];
        && r.id == s.id && r.studentName == s.studentName
        && r.country == s.country && r.scaleLegend == s.scaleLegend
        && r.courses == CoursesFor(st, KeyOfRow(s))
  {
    if !WellFormedId(id) then Invalid
    else if fault == ReadPoolFails || fault == LookupFails then Failed
    else match FindSubmission(st.submissions, id.value)
      case None => NotFound
      case Some(i) =>
        assert SameId(st.submissions[i].id, id.value);
        if fault == CoursesQueryFails then Failed
        else
          assert fault == NoReadFault;
          var s := st.submissions[i];
          assert 0 <= i < |st.submissions| && SameId(st.submissions[i].id, id.value);
          Found(s.id, s.studentName, s.country, s.scaleLegend, CoursesFor(st, KeyOfRow(s)))
  }

  /** A malformed id is answered with 400 before the database is asked:
      the answer does not depend on the store or on what the database would do. */
  lemma InvalidIdIgnoresDatabase(id: Option<string>, st1: Store, f1: ReadFault, st2: Store, f2: ReadFault)
    requires !WellFormedId(id)
    ensures Get(id, st1, f1) == Get(id, st2, f2) == Invalid
  {
  }

  /** The id may be written in either case. */
  lemma IdCaseIrrelevant(a: string, b: string, st: Store, fault: ReadFault)
    requires WellFormedId(Some(a)) && WellFormedId(Some(b)) && Lower(a) == Lower(b)
    ensures Get(Some(a), st, fault) == Get(Some(b), st, fault)
  {
    assert forall s :: SameId(s, a) <==> SameId(s, b);
    FindSameId(st.submissions, a, b);
  }

  lemma {:induction false} FindSameId(subs: seq<SubmissionRow>, a: string, b: string)
    requires Lower(a) == Lower(b)
    ensures FindSubmission(subs, a) == FindSubmission(subs, b)
  {
    if subs != [] {
      FindSameId(subs[1..], a, b);
    }
  }

  /** Two submissions of the same student, by name and country up to
      padding and case, are answered with the same course list. */
  lemma SameStudentSameCourses(id1: string, id2: string, st: Store)
    requires Get(Some(id1), st, NoReadFault).Found? && Get(Some(id2), st, NoReadFault).Found?
    requires StudentKeyOf(Get(Some(id1), st, NoReadFault).studentName, Get(Some(id1), st, NoReadFault).country)
          == StudentKeyOf(Get(Some(id2), st, NoReadFault).studentName, Get(Some(id2), st, NoReadFault).country)
    ensures Get(Some(id1), st, NoReadFault).courses == Get(Some(id2), st, NoReadFault).courses
  {
  }
}

=== FILE: js_number.dfy ===
/** The JavaScript numbers the application sees after `Number(...)`.
    Values are exact reals; IEEE-754 rounding is not modelled. */
module JsNumber {

  datatype Num = Finite(value: real) | NaN | Infinity(negative: bool)

  /** `Number.isFinite(n)`. */
  predicate IsFinite(n: Num) {
    n.Finite?
  }

  /** `n > 0`; NaN compares false, +Infinity true. */
  predicate IsPositive(n: Num) {
    (n.Finite? && n.value > 0.0) || n == Infinity(false)
  }

  /** `n >= 0 && n <= 100`; NaN and both infinities fail it. */
  predicate InPercentRange(n: Num) {
    n.Finite? && 0.0 <= n.value <= 100.0
  }

  /** `n || 0`: NaN and zero are falsy and give 0, every other number is kept.
      Negative zero is not distinguished from zero. */
  function OrZero(n: Num): (r: Num)
    ensures !r.NaN?
    ensures n.NaN? ==> r == Finite(0.0)
    ensures !n.NaN? ==> r == n
  {
    if n.NaN? || n == Finite(0.0) then Finite(0.0) else n
  }
}

=== FILE: readback.dfy ===
/** Reading a submission back right after it was written. As written, the
    write handler leaves every course row's student key NULL while the read
    handler selects courses by that key, so the courses just posted never
    come back. `PostKeyed` is the write handler with the key filled in, and
    with it the posted courses are exactly what is read back. */
module ReadAfterWrite {

  import opened Wrappers
  import opened JsNumber
  import opened Store
  import opened TitleOrder
  import opened SubmitHandler
  import opened FetchHandler

  /** `newId` is an id the read handler accepts and no stored submission has. */
  predicate FreshId(st: Store, newId: string) {
    WellFormedId(Some(newId)) && forall i :: 0 <= i < |st.submissions| ==> !SameId(st.submissions[i].id, newId)
  }

  /** The new submission is the one a lookup of its id finds. */
  lemma {:induction false} FindAppended(subs: seq<SubmissionRow>, row: SubmissionRow, id: string)
    requires forall i :: 0 <= i < |subs| ==> !SameId(subs[i].id, id)
    requires SameId(row.id, id)
    ensures FindSubmission(subs + [row], id) == Some(|subs|)
  {
    if subs == [] {
      assert subs + [row] == [row];
    } else {
      assert (subs + [row])[1..] == subs[1..] + [row];
      FindAppended(subs[1..], row, id);
    }
  }

  /** The course rows with the student key filled in. */
  function Stamp(rows: seq<CourseRow>, key: string): (r: seq<CourseRow>)
    ensures |r| == |rows|
    ensures forall i :: 0 <= i < |rows| ==> r[i] == rows[i].(studentKey := Some(key))
  {
    seq(|rows|, i requires 0 <= i < |rows| => rows[i].(studentKey := Some(key)))
  }

  /** The write handler with the evidently intended key: every course row
      is stamped with the key the read handler derives from the submission
      row it belongs to. Everything else is as in `Post`. */
  function PostKeyed(body: Option<Body>, st: Store, newId: string, fault: Fault): (o: Outcome)
    ensures o.response == Post(body, st, newId, fault).response
    ensures !o.response.Created? ==> o.store == st
    ensures o.response.Created? ==>
      var items := body.value.courses.items;
      var key := KeyOfRow(SubmissionOf(body.value, newId));
      && o.store.submissions == st.submissions + [SubmissionOf(body.value, newId)]
      && |o.store.courses| == |st.courses| + |items|
      && o.store.courses[..|st.courses|] == st.courses
      && forall i :: 0 <= i < |items| ==>
           o.store.courses[|st.courses| + i] == CourseRowOf(items[i], newId).(studentKey := Some(key))
  {
    if !HasCourses(body) then Outcome(BadRequest, st)
    else if fault == PoolFails || fault == BeginFails || fault == SubmissionInsertFails then
      Outcome(ServerError, st)
    else
      var b := body.value;
      var sub := SubmissionOf(b, newId);
      match StageCourses(b.courses.items, newId, fault, 0)
      case None => Outcome(ServerError, st)
      case Some(rows) =>
        if fault == CommitFails then Outcome(ServerError, st)
        else Outcome(Created(newId), Store(st.submissions + [sub], st.courses + Stamp(rows, KeyOfRow(sub))))
  }

  /** The views of the posted courses, in posted order. */
  function PostedViews(items: seq<RawCourse>, newId: string): (r: seq<CourseView>)
    requires forall i :: 0 <= i < |items| ==> items[i].CourseObject?
    ensures |r| == |items|
    ensures forall i :: 0 <= i < |items| ==> r[i] == View(CourseRowOf(items[i], newId))
  {
    seq(|items|, i requires 0 <= i < |items| => View(CourseRowOf(items[i], newId)))
  }

  /** As written, a successful post adds no row under any student key. */
  lemma PostAddsNoKeyedRow(body: Option<Body>, st: Store, newId: string, key: string)
    requires Post(body, st, newId, NoFault).response.Created?
    ensures KeyedViews(Post(body, st, newId, NoFault).store.courses, key) == KeyedViews(st.courses, key)
  {
    var o := Post(body, st, newId, NoFault);
    var n := |st.courses|;
    var added := o.store.courses[n..];
    assert o.store.courses == st.courses + added;
    CreatedRowsBelongToSubmission(body, st, newId, NoFault);
    assert forall i :: 0 <= i < |added| ==> added[i] == o.store.courses[n + i];
    KeyedViewsAppend(st.courses, added, key);
    KeyedViewsOfOtherKeys(added, key);
  }

  /** As written: reading the new submission back shows the course list the
      student had before the post; none of the posted courses is in it. */
  lemma PostedCoursesAreNotReadBack(body: Option<Body>, st: Store, newId: string)
    requires FreshId(st, newId)
    requires Post(body, st, newId, NoFault).response.Created?
    ensures var r := Get(Some(newId), Post(body, st, newId, NoFault).store, NoReadFault);
      && r.Found?
      && r.courses == CoursesFor(st, KeyOfRow(SubmissionOf(body.value, newId)))
  {
    var o := Post(body, st, newId, NoFault);
    var sub := SubmissionOf(body.value, newId);
    var key := KeyOfRow(sub);
    PostAddsNoKeyedRow(body, st, newId, key);
    FindAppended(st.submissions, sub, newId);
    assert o.store.submissions[|st.submissions|] == sub;
    assert CoursesFor(o.store, key) == CoursesFor(st, key);
  }

  /** The id the example below uses. */
  const ExampleId: string := "00000000-0000-0000-0000-000000000001"

  /** As written, on an empty database: one course is posted, the post
      succeeds, and reading the submission back lists no course at all. */
  lemma ReadAfterWriteLosesCourses()
    ensures
      var body := Some(Body(Given("Ada"), Absent, Absent,
                            ArrayOf([CourseObject(Some("Maths"), Finite(3.0), Finite(75.0))])));
      var o := Post(body, Store([], []), ExampleId, NoFault);
      && o.response == Created(ExampleId)
      && |o.store.courses| == 1
      && Get(Some(ExampleId), o.store, NoReadFault).Found?
      && Get(Some(ExampleId), o.store, NoReadFault).courses == []
  {
    var body := Some(Body(Given("Ada"), Absent, Absent,
                          ArrayOf([CourseObject(Some("Maths"), Finite(3.0), Finite(75.0))])));
    assert FreshId(Store([], []), ExampleId);
    PostedCoursesAreNotReadBack(body, Store([], []), ExampleId);
    var key := KeyOfRow(SubmissionOf(body.value, ExampleId));
    assert KeyedViews([], key) == [];
  }

  /** With the key filled in: the submission reads back with the fields as
      stored, and its course list is, in title order, the student's earlier
      courses together with exactly the posted ones. */
  lemma KeyedPostIsReadBack(body: Option<Body>, st: Store, newId: string)
    requires FreshId(st, newId)
    requires PostKeyed(body, st, newId, NoFault).response.Created?
    ensures
      var sub := SubmissionOf(body.value, newId);
      var items := body.value.courses.items;
      var r := Get(Some(newId), PostKeyed(body, st, newId, NoFault).store, NoReadFault);
      && r.Found?
      && r.id == newId && r.studentName == sub.studentName
      && r.country == sub.country && r.scaleLegend == sub.scaleLegend
      && (forall i :: 0 <= i < |items| ==> items[i].CourseObject?)
      && SortedByTitle(r.courses)
      && multiset(r.courses) == multiset(KeyedViews(st.courses, KeyOfRow(sub))) + multiset(PostedViews(items, newId))
  {
    var o := PostKeyed(body, st, newId, NoFault);
    var sub := SubmissionOf(body.value, newId);
    var key := KeyOfRow(sub);
    var items := body.value.courses.items;
    var n := |st.courses|;
    var added := o.store.courses[n..];
    assert o.store.courses == st.courses + added;
    forall i | 0 <= i < |added|
      ensures added[i].studentKey == Some(key)
      ensures View(added[i]) == PostedViews(items, newId)[i]
    {
      assert added[i] == o.store.courses[n + i];
    }
    KeyedViewsAppend(st.courses, added, key);
    KeyedViewsOfKeyed(added, key);
    assert KeyedViews(added, key) == PostedViews(items, newId);
    FindAppended(st.submissions, sub, newId);
  }

  /** A student's first submission reads back with exactly the posted
      courses, in title order. */
  lemma FirstKeyedPostIsReadBack(body: Option<Body>, st: Store, newId: string)
    requires FreshId(st, newId)
    requires PostKeyed(body, st, newId, NoFault).response.Created?
    requires forall i :: 0 <= i < |st.courses| ==>
      st.courses[i].studentKey != Some(KeyOfRow(SubmissionOf(body.value, newId)))
    ensures
      var items := body.value.courses.items;
      var r := Get(Some(newId), PostKeyed(body, st, newId, NoFault).store, NoReadFault);
      && r.Found?
      && (forall i :: 0 <= i < |items| ==> items[i].CourseObject?)
      && SortedByTitle(r.courses)
      && multiset(r.courses) == multiset(PostedViews(items, newId))
  {
    KeyedPostIsReadBack(body, st, newId);
    var key := KeyOfRow(SubmissionOf(body.value, newId));
    KeyedViewsOfOtherKeys(st.courses, key);
  }
}

=== FILE: scales.dfy ===
/** The national grading tables of the browser calculator, the score-to-grade
    lookup, the highest attainable grade point and the printed scale legend. */
module Scales {

  import opened Wrappers
  import opened Text
  import opened JsNumber

  /** One row of a grading table: a score of at least `min` earns `letter`
      and `tenths`/10 grade points (so 4.3 points is `tenths == 43`). */
  datatype Band = Band(letter: string, min: nat, tenths: nat)

  type Scale = seq<Band>

  /** Grade points counted in tenths, as the exact real they stand for. */
  function TenthsToPoints(t: nat): real {
    t as real / 10.0
  }

  /** The grade points of a band. */
  function Points(b: Band): real {
    TenthsToPoints(b.tenths)
  }

  /** The keys of the table of scales, one per country. */
  datatype Country = Nigeria | Us | UsPlusMinus | Canada | Uk | Australia | India | Ghana

  /** The key of the country in the table of scales (also the selector value). */
  function CountryName(c: Country): string {
    match c
    case Nigeria => "nigeria"
    case Us => "us"
    case UsPlusMinus => "us_plusminus"
    case Canada => "canada"
    case Uk => "uk"
    case Australia => "australia"
    case India => "india"
    case Ghana => "ghana"
  }

  /** The country a selector value names, if it names one. */
  function CountryFromName(s: string): Option<Country> {
    if s == "nigeria" then Some(Nigeria)
    else if s == "us" then Some(Us)
    else if s == "us_plusminus" then Some(UsPlusMinus)
    else if s == "canada" then Some(Canada)
    else if s == "uk" then Some(Uk)
    else if s == "australia" then Some(Australia)
    else if s == "india" then Some(India)
    else if s == "ghana" then Some(Ghana)
    else None
  }

  /** Country keys are non-empty and name their country back. */
  lemma CountryNameRoundTrip(c: Country)
    ensures CountryName(c) != []
    ensures CountryFromName(CountryName(c)) == Some(c)
  {
  }

  /** The grading tables, highest band first. */
  const NigeriaScale: Scale := [
    Band("A", 70, 50), Band("B", 60, 40), Band("C", 50, 30),
    Band("D", 45, 20), Band("E", 40, 10), Band("F", 0, 0)]

  const UsScale: Scale := [
    Band("A", 90, 40), Band("B", 80, 30), Band("C", 70, 20),
    Band("D", 60, 10), Band("F", 0, 0)]

  const UsPlusMinusScale: Scale := [
    Band("A+", 97, 43), Band("A", 93, 40), Band("A-", 90, 37),
    Band("B+", 87, 33), Band("B", 83, 30), Band("B-", 80, 27),
    Band("C+", 77, 23), Band("C", 73, 20), Band("C-", 70, 17),
    Band("D", 60, 10), Band("F", 0, 0)]

  const CanadaScale: Scale := [
    Band("A", 85, 40), Band("B", 70, 30), Band("C", 60, 20),
    Band("D", 50, 10), Band("F", 0, 0)]

  const UkScale: Scale := [
    Band("First", 70, 40), Band("Upper Second", 60, 30),
    Band("Lower Second", 50, 20), Band("Third", 40, 10), Band("Fail", 0, 0)]

  const AustraliaScale: Scale := [
    Band("HD", 85, 70), Band("D", 75, 60), Band("C", 65, 50),
    Band("P", 50, 40), Band("N", 0, 0)]

  const IndiaScale: Scale := [
    Band("O", 90, 100), Band("A+", 80, 90), Band("A", 70, 80),
    Band("B+", 60, 70), Band("B", 55, 60), Band("C", 50, 50),
    Band("P", 40, 40), Band("F", 0, 0)]

  const GhanaScale: Scale := [
    Band("A", 80, 40), Band("B+", 75, 35), Band("B", 70, 30),
    Band("C+", 65, 25), Band("C", 60, 20), Band("D+", 55, 15),
    Band("D", 50, 10), Band("F", 0, 0)]

  /** The grading table of each country. */
  function ScaleOf(c: Country): Scale {
    match c
    case Nigeria => NigeriaScale
    case Us => UsScale
    case UsPlusMinus => UsPlusMinusScale
    case Canada => CanadaScale
    case Uk => UkScale
    case Australia => AustraliaScale
    case India => IndiaScale
    case Ghana => GhanaScale
  }

  /** The letter shown for a score outside 0..100. */
  const NoGradeLetter: string := "—"

  /** Bands strictly decrease in `min` from first to last. */
  predicate StrictlyDescending(s: Scale) {
    forall i, j :: 0 <= i < j < |s| ==> s[i].min > s[j].min
  }

  predicate AdjacentDescending(s: Scale) {
    forall i :: 0 <= i < |s| - 1 ==> s[i].min > s[i + 1].min
  }

  lemma {:induction false} AdjacentDescendingIsStrict(s: Scale)
    requires AdjacentDescending(s)
    ensures StrictlyDescending(s)
  {
    if |s| > 1 {
      AdjacentDescendingIsStrict(s[1..]);
      forall i, j | 0 <= i < j < |s|
        ensures s[i].min > s[j].min
      {
        if i > 0 {
          assert s[i].min == s[1..][i - 1].min && s[j].min == s[1..][j - 1].min;
        } else if j > 1 {
          assert s[1].min == s[1..][0].min && s[j].min == s[1..][j - 1].min;
        }
      }
    }
  }

  /** What the lookup relies on: a non-empty, strictly descending table
      whose last band starts at 0, with no band above 100 and no band
      spelled like the out-of-range marker. */
  predicate WellFormed(s: Scale) {
    && |s| > 0
    && StrictlyDescending(s)
    && s[|s| - 1].min == 0
    && (forall i :: 0 <= i < |s| ==> s[i].min <= 100 && s[i].letter != NoGradeLetter)
  }

  /** Every table of the application is well formed; in particular each is
      already sorted by descending `min`, so the `sort((a, b) => b.min - a.min)`
      the lookup and the legend apply returns the table unchanged. */
  lemma ScalesWellFormed(c: Country)
    ensures WellFormed(ScaleOf(c))
  {
    TableChecked(c);
    AdjacentDescendingIsStrict(ScaleOf(c));
  }

  /** The facts about a table that can be read off its literal. */
  predicate TableChecks(s: Scale) {
    && |s| > 0
    && AdjacentDescending(s)
    && s[|s| - 1].min == 0
    && (forall i :: 0 <= i < |s| ==> s[i].min <= 100 && s[i].letter != NoGradeLetter)
    && (forall i :: 0 <= i < |s| ==> PlainLetter(s[i].letter))
  }

  lemma TableChecked(c: Country)
    ensures TableChecks(ScaleOf(c))
  {
    match c
    case Nigeria => NigeriaChecked();
    case Us => UsChecked();
    case UsPlusMinus => UsPlusMinusChecked();
    case Canada => CanadaChecked();
    case Uk => UkChecked();
    case Australia => AustraliaChecked();
    case India => IndiaChecked();
    case Ghana => GhanaChecked();
  }

  lemma NigeriaChecked() ensures TableChecks(NigeriaScale) {}
  lemma UsChecked() ensures TableChecks(UsScale) {}
  lemma UsPlusMinusChecked() ensures TableChecks(UsPlusMinusScale) {}
  lemma CanadaChecked() ensures TableChecks(CanadaScale) {}
  lemma UkChecked() ensures TableChecks(UkScale) {
    forall i | 0 <= i < |UkScale|
      ensures UkScale[i].letter != NoGradeLetter && PlainLetter(UkScale[i].letter)
    {
      var l := UkScale[i].letter;
      assert l[0] != NoGradeLetter[0];
      if i == 1 {
        assert PlainLetter("Upper Second");
      } else if i == 2 {
        assert PlainLetter("Lower Second");
      }
    }
  }
  lemma AustraliaChecked() ensures TableChecks(AustraliaScale) {}
  lemma IndiaChecked() ensures TableChecks(IndiaScale) {}
  lemma GhanaChecked() ensures TableChecks(GhanaScale) {}

  /** The largest grade point of a table, in tenths. */
  function MaxTenths(s: Scale): (m: nat)
    requires |s| > 0
    ensures forall i :: 0 <= i < |s| ==> s[i].tenths <= m
    ensures exists i :: 0 <= i < |s| && s[i].tenths == m
  {
    if |s| == 1 then s[0].tenths
    else
      var m := MaxTenths(s[1..]);
      assert forall i :: 1 <= i < |s| ==> s[i] == s[1..][i - 1];
      if s[0].tenths >= m then s[0].tenths else m
  }

  /** The letter and points shown beside a score. */
  datatype Grade = Grade(letter: string, tenths: nat)

  const NoGrade: Grade := Grade(NoGradeLetter, 0)

  function GradeOf(b: Band): Grade {
    Grade(b.letter, b.tenths)
  }

  /** `ranges.find(r => n >= r.min)`: the position of the first band whose
      `min` the score reaches. */
  function FindBand(s: Scale, v: real): (r: Option<nat>)
    ensures r.Some? ==> r.value < |s| && s[r.value].min as real <= v
    ensures r.Some? ==> forall j :: 0 <= j < r.value ==> s[j].min as real > v
    ensures r.None? ==> forall j :: 0 <= j < |s| ==> s[j].min as real > v
  {
    if s == [] then None
    else if v >= s[0].min as real then Some(0)
    else match FindBand(s[1..], v)
      case None => None
      case Some(i) => Some(i + 1)
  }

  /** Band `i` is the one with the greatest `min` the score reaches. */
  ghost predicate IsBestBand(s: Scale, v: real, i: int) {
    && 0 <= i < |s|
    && s[i].min as real <= v
    && forall j :: 0 <= j < |s| && s[j].min as real <= v ==> s[j].min <= s[i].min
  }

  /** On a strictly descending table the first band reached is the best one. */
  lemma FindBandIsBest(s: Scale, v: real)
    requires StrictlyDescending(s)
    requires FindBand(s, v).Some?
    ensures IsBestBand(s, v, FindBand(s, v).value)
  {
  }

  /** The lookup on a well-formed table: a score outside 0..100 (NaN and the
      infinities included) gets the marker and 0 points, any other score a
      band of the table (the best one, by `GradeInIsBestBand`). */
  function GradeIn(s: Scale, score: Num): (g: Grade)
    requires WellFormed(s)
    ensures g == NoGrade <==> !InPercentRange(score)
    ensures g.tenths <= MaxTenths(s)
  {
    if !InPercentRange(score) then NoGrade
    else
      assert s[|s| - 1].min as real <= score.value;
      match FindBand(s, score.value)
      case Some(i) => GradeOf(s[i])
      case None => NoGrade
  }

  /** An in-range score gets the band with the greatest `min` it reaches. */
  lemma GradeInIsBestBand(s: Scale, score: Num)
    requires WellFormed(s) && InPercentRange(score)
    ensures exists i :: IsBestBand(s, score.value, i) && GradeIn(s, score) == GradeOf(s[i])
  {
    assert s[|s| - 1].min as real <= score.value;
    FindBandIsBest(s, score.value);
  }

  /** `gradeFromScore(score)` on the table of the selected country: the
      marker and 0 points outside 0..100, otherwise a band of the table worth
      at most `maxPoints()` (`GradeFromScoreIsBest`, `GradeAtMostMax`). */
  function GradeFromScore(c: Country, score: Num): (g: Grade)
    ensures g == NoGrade <==> !InPercentRange(score)
  {
    ScalesWellFormed(c);
    GradeIn(ScaleOf(c), score)
  }

  /** An in-range score gets the band of the selected table with the
      greatest `min` it reaches. */
  lemma GradeFromScoreIsBest(c: Country, score: Num)
    requires InPercentRange(score)
    ensures exists i :: IsBestBand(ScaleOf(c), score.value, i) && GradeFromScore(c, score) == GradeOf(ScaleOf(c)[i])
  {
    ScalesWellFormed(c);
    GradeInIsBestBand(ScaleOf(c), score);
  }

  /** No score earns more than `maxPoints()`. */
  lemma GradeAtMostMax(c: Country, score: Num)
    ensures TenthsToPoints(GradeFromScore(c, score).tenths) <= MaxPoints(c)
  {
    ScalesWellFormed(c);
    assert GradeFromScore(c, score).tenths <= MaxTenths(ScaleOf(c));
  }

  /** A band's `min` is where it starts: every score from that `min` up to,
      but excluding, the `min` of the band above earns exactly that band. */
  lemma BandBoundaries(c: Country, i: nat, v: real)
    requires i < |ScaleOf(c)|
    requires ScaleOf(c)[i].min as real <= v <= 100.0
    requires i == 0 || v < ScaleOf(c)[i - 1].min as real
    ensures GradeFromScore(c, Finite(v)) == GradeOf(ScaleOf(c)[i])
  {
    ScalesWellFormed(c);
    var s := ScaleOf(c);
    var g := GradeFromScore(c, Finite(v));
    GradeFromScoreIsBest(c, Finite(v));
    var k :| IsBestBand(s, v, k) && g == GradeOf(s[k]);
    assert s[k].min >= s[i].min;
  }

  /** On the Nigerian table 70 is an A worth 5 and 69 a B worth 4. */
  lemma NigeriaBoundaryExample()
    ensures GradeFromScore(Nigeria, Finite(70.0)) == Grade("A", 50)
    ensures GradeFromScore(Nigeria, Finite(69.0)) == Grade("B", 40)
  {
    BandBoundaries(Nigeria, 0, 70.0);
    BandBoundaries(Nigeria, 1, 69.0);
  }

  /** `maxPoints()`: the most grade points any band of the table awards. */
  function MaxPoints(c: Country): (r: real)
    ensures forall i :: 0 <= i < |ScaleOf(c)| ==> Points(ScaleOf(c)[i]) <= r
    ensures exists i :: 0 <= i < |ScaleOf(c)| && Points(ScaleOf(c)[i]) == r
  {
    TenthsToPoints(MaxTenths(ScaleOf(c)))
  }

  /** How `${points}` prints: no decimals for a whole number, one otherwise. */
  function PointsText(t: nat): string {
    if t % 10 == 0 then NatToString(t / 10)
    else NatToString(t / 10) + "." + [DigitChar(t % 10)]
  }

  /** One legend entry, `${letter}≥${min}→${points}`. */
  function EntryText(b: Band): string {
    b.letter + "≥" + NatToString(b.min) + "→" + PointsText(b.tenths)
  }

  function EntryTexts(s: Scale): (r: seq<string>)
    ensures |r| == |s|
    ensures forall i :: 0 <= i < |s| ==> r[i] == EntryText(s[i])
  {
    if s == [] then [] else [EntryText(s[0])] + EntryTexts(s[1..])
  }

  /** The legend of a table: its entries, highest band first, joined by ", ". */
  function SummaryText(s: Scale): string {
    Join(EntryTexts(s), ", ")
  }

  /** `scaleSummaryText()` for country `c`. */
  function ScaleSummaryText(c: Country): string {
    SummaryText(ScaleOf(c))
  }

  /** Legend entries as the page stores them: whole points print without
      a decimal point, fractional points with one decimal. */
  lemma LegendEntryExamples()
    ensures EntryText(NigeriaScale[0]) == "A≥70→5"
    ensures EntryText(NigeriaScale[5]) == "F≥0→0"
    ensures EntryText(UsPlusMinusScale[0]) == "A+≥97→4.3"
    ensures EntryText(UsPlusMinusScale[2]) == "A-≥90→3.7"
  {
  }

  /** Reads `${points}` back into tenths. */
  function ParsePoints(s: string): Option<nat> {
    match IndexOf(s, '.')
    case None =>
      (match ParseNat(s)
       case None => None
       case Some(m) => Some(m * 10))
    case Some(i) =>
      if |s| != i + 2 || !IsDigit(s[i + 1]) then None
      else match ParseNat(s[..i])
        case None => None
        case Some(m) => Some(m * 10 + (s[i + 1] as int - '0' as int))
  }

  /** Reads one legend entry back into a band. */
  function ParseEntry(e: string): Option<Band> {
    match IndexOf(e, '≥')
    case None => None
    case Some(i) =>
      var rest := e[i + 1..];
      match IndexOf(rest, '→')
      case None => None
      case Some(j) =>
        match (ParseNat(rest[..j]), ParsePoints(rest[j + 1..]))
        case (Some(m), Some(t)) => Some(Band(e[..i], m, t))
        case _ => None
  }

  function ParseEntries(xs: seq<string>): Option<Scale> {
    if xs == [] then Some([])
    else match (ParseEntry(xs[0]), ParseEntries(xs[1..]))
      case (Some(b), Some(bs)) => Some([b] + bs)
      case _ => None
  }

  /** Reads a whole legend back into its table. */
  function ParseSummary(s: string): Option<Scale> {
    ParseEntries(SplitList(s))
  }

  /** A letter that does not contain the legend's punctuation. */
  predicate PlainLetter(l: string) {
    ',' !in l && '≥' !in l && '→' !in l
  }

  lemma NoDigitIn(n: nat, c: char)
    requires !IsDigit(c)
    ensures c !in NatToString(n)
  {
  }

  lemma ParsePointsText(t: nat)
    ensures ParsePoints(PointsText(t)) == Some(t)
  {
    var q := NatToString(t / 10);
    ParseNatToString(t / 10);
    NoDigitIn(t / 10, '.');
    if t % 10 != 0 {
      var s := q + "." + [DigitChar(t % 10)];
      assert s == q + ("." + [DigitChar(t % 10)]);
      IndexOfAfterPrefix(q, "." + [DigitChar(t % 10)], '.');
      assert s[..|q|] == q;
    }
  }

  /** Cutting `x + [c] + t` at its first `c` gives back `x` and `t`. */
  lemma CutAt(x: string, c: char, t: string)
    requires c !in x
    ensures IndexOf(x + [c] + t, c) == Some(|x|)
    ensures (x + [c] + t)[..|x|] == x
    ensures (x + [c] + t)[|x| + 1..] == t
  {
    assert x + [c] + t == x + ([c] + t);
    IndexOfAfterPrefix(x, [c] + t, c);
  }

  lemma ParseEntryText(b: Band)
    requires PlainLetter(b.letter)
    ensures ParseEntry(EntryText(b)) == Some(b)
  {
    var m := NatToString(b.min);
    var p := PointsText(b.tenths);
    var rest := m + "→" + p;
    assert EntryText(b) == b.letter + "≥" + rest;
    CutAt(b.letter, '≥', rest);
    NoDigitIn(b.min, '→');
    CutAt(m, '→', p);
    ParseNatToString(b.min);
    ParsePointsText(b.tenths);
  }

  lemma {:induction false} ParseEntryTexts(s: Scale)
    requires forall i :: 0 <= i < |s| ==> PlainLetter(s[i].letter)
    ensures ParseEntries(EntryTexts(s)) == Some(s)
  {
    if s != [] {
      ParseEntryText(s[0]);
      ParseEntryTexts(s[1..]);
      assert EntryTexts(s)[1..] == EntryTexts(s[1..]);
      assert [s[0]] + s[1..] == s;
    }
  }

  lemma EntryHasNoComma(b: Band)
    requires PlainLetter(b.letter)
    ensures ',' !in EntryText(b)
  {
    NoDigitIn(b.min, ',');
    NoDigitIn(b.tenths / 10, ',');
    if b.tenths % 10 != 0 {
      assert ',' !in [DigitChar(b.tenths % 10)];
    }
  }

  /** The legend records its table faithfully: reading it back yields every
      band's letter, `min` and points, in the table's order. */
  lemma SummaryRoundTrip(s: Scale)
    requires |s| > 0
    requires forall i :: 0 <= i < |s| ==> PlainLetter(s[i].letter)
    ensures ParseSummary(SummaryText(s)) == Some(s)
  {
    var xs := EntryTexts(s);
    forall k | 0 <= k < |xs|
      ensures ',' !in xs[k]
    {
      EntryHasNoComma(s[k]);
    }
    SplitJoin(xs);
    ParseEntryTexts(s);
  }

  /** Every country's legend reads back as its table. */
  lemma ScaleLegendRoundTrip(c: Country)
    ensures ParseSummary(ScaleSummaryText(c)) == Some(ScaleOf(c))
  {
    ScaleLettersPlain(c);
    SummaryRoundTrip(ScaleOf(c));
  }

  lemma ScaleLettersPlain(c: Country)
    ensures forall i :: 0 <= i < |ScaleOf(c)| ==> PlainLetter(ScaleOf(c)[i].letter)
  {
    TableChecked(c);
  }
}

=== FILE: stats.dfy ===
/** The totals panel of the calculator: credit units, quality points and
    the weighted grade point average over the rows that can be counted. */
module Stats {

  import opened JsNumber
  import opened Scales
  import opened Client

  /** A row enters the totals when its unit is a finite number above 0 and
      its score is finite; an out-of-range score still counts, at 0 points. */
  predicate Counted(c: Course) {
    c.unit.Finite? && c.unit.value > 0.0 && c.score.Finite?
  }

  /** Running sums of the `reduce` in `renderStats()`. */
  datatype Totals = Totals(units: real, quality: real)

  /** The fold of `renderStats()`, from the first row to the last, where
      `gain(c)` is the quality a counted row adds (its unit times its
      points): units are the sum of the counted rows' units and quality the
      sum of their gains. */
  function TotalsWith(gain: Course -> real, cs: seq<Course>): Totals
  {
    if cs == [] then Totals(0.0, 0.0)
    else
      var t := TotalsWith(gain, cs[..|cs| - 1]);
      var c := cs[|cs| - 1];
      if Counted(c) then Totals(t.units + c.unit.value, t.quality + gain(c))
      else t
  }

  /** The units are never negative, and 0 exactly when no row is counted. */
  lemma {:induction false} UnitsCountCountedRows(gain: Course -> real, cs: seq<Course>)
    ensures TotalsWith(gain, cs).units >= 0.0
    ensures TotalsWith(gain, cs).units == 0.0 <==> forall i :: 0 <= i < |cs| ==> !Counted(cs[i])
  {
    if cs != [] {
      var init := cs[..|cs| - 1];
      UnitsCountCountedRows(gain, init);
      assert forall i :: 0 <= i < |cs| - 1 ==> cs[i] == init[i];
    }
  }

  /** `gain` never falls below 0 nor exceeds `cap` on a counted row. */
  ghost predicate Dominated(gain: Course -> real, cap: Course -> real) {
    forall c :: Counted(c) ==> 0.0 <= gain(c) <= cap(c)
  }

  /** Quality under a dominated gain lies between 0 and the quality under
      its cap; the units are the same. */
  lemma {:induction false} TotalsDominated(gain: Course -> real, cap: Course -> real, cs: seq<Course>)
    requires Dominated(gain, cap)
    ensures TotalsWith(gain, cs).units == TotalsWith(cap, cs).units
    ensures 0.0 <= TotalsWith(gain, cs).quality <= TotalsWith(cap, cs).quality
  {
    if cs != [] {
      TotalsDominated(gain, cap, cs[..|cs| - 1]);
    }
  }

  /** The gain of a row earning `m` points whatever its score. */
  function Flat(m: real): Course -> real {
    (c: Course) => if c.unit.Finite? then m * c.unit.value else 0.0
  }

  lemma Distribute(m: real, a: real, b: real)
    ensures m * a + m * b == m * (a + b)
  {
  }

  /** When every row earns `m` points, quality is `m` times the units. */
  lemma {:induction false} FlatTotals(m: real, cs: seq<Course>)
    ensures TotalsWith(Flat(m), cs).quality == m * TotalsWith(Flat(m), cs).units
  {
    if cs == [] {
      assert m * 0.0 == 0.0;
    } else {
      var init := cs[..|cs| - 1];
      var c := cs[|cs| - 1];
      FlatTotals(m, init);
      if Counted(c) {
        Distribute(m, TotalsWith(Flat(m), init).units, c.unit.value);
      }
    }
  }

  /** When every counted row earns between 0 and `m` points, quality points
      are never negative and never exceed `m` times the units. */
  lemma TotalsBounded(gain: Course -> real, m: real, cs: seq<Course>)
    requires Dominated(gain, Flat(m))
    ensures 0.0 <= TotalsWith(gain, cs).quality <= m * TotalsWith(gain, cs).units
  {
    TotalsDominated(gain, Flat(m), cs);
    FlatTotals(m, cs);
  }

  /** The totals of two lists of rows, one after the other, add up. */
  lemma {:induction false} TotalsAppend(gain: Course -> real, a: seq<Course>, b: seq<Course>)
    ensures TotalsWith(gain, a + b).units == TotalsWith(gain, a).units + TotalsWith(gain, b).units
    ensures TotalsWith(gain, a + b).quality == TotalsWith(gain, a).quality + TotalsWith(gain, b).quality
    decreases |b|
  {
    if b == [] {
      assert a + b == a;
    } else {
      var b' := b[..|b| - 1];
      assert (a + b)[..|a + b| - 1] == a + b';
      assert (a + b)[|a + b| - 1] == b[|b| - 1];
      TotalsAppend(gain, a, b');
    }
  }

  /** A row that is not counted leaves the totals as they were, wherever it sits. */
  lemma UncountedRowChangesNothing(gain: Course -> real, a: seq<Course>, c: Course, b: seq<Course>)
    requires !Counted(c)
    ensures TotalsWith(gain, a + [c] + b) == TotalsWith(gain, a + b)
  {
    TotalsAppend(gain, a + [c], b);
    TotalsAppend(gain, a, b);
    assert (a + [c])[..|a + [c]| - 1] == a;
  }

  /** Swapping two adjacent rows does not change the totals, so the GPA does
      not depend on the order of the rows. */
  lemma SwapRowsKeepsTotals(gain: Course -> real, a: seq<Course>, c: Course, d: Course, b: seq<Course>)
    ensures TotalsWith(gain, a + [c, d] + b) == TotalsWith(gain, a + [d, c] + b)
  {
    TotalsAppend(gain, a + [c, d], b);
    TotalsAppend(gain, a + [d, c], b);
    TotalsAppend(gain, a, [c, d]);
    TotalsAppend(gain, a, [d, c]);
    TotalsAppend(gain, [c], [d]);
    TotalsAppend(gain, [d], [c]);
    assert [c] + [d] == [c, d];
    assert [d] + [c] == [d, c];
  }

  /** A counted row appended to the list adds its units and its gain. */
  lemma CountedRowAdds(gain: Course -> real, cs: seq<Course>, c: Course)
    requires Counted(c)
    ensures TotalsWith(gain, cs + [c]).units == TotalsWith(gain, cs).units + c.unit.value
    ensures TotalsWith(gain, cs + [c]).quality == TotalsWith(gain, cs).quality + gain(c)
  {
    assert (cs + [c])[..|cs + [c]| - 1] == cs;
  }

  /** A counted row that gains nothing adds its units and no quality. */
  lemma PointlessRowAddsUnitsOnly(gain: Course -> real, cs: seq<Course>, c: Course)
    requires Counted(c) && gain(c) == 0.0
    ensures TotalsWith(gain, cs + [c]).units == TotalsWith(gain, cs).units + c.unit.value
    ensures TotalsWith(gain, cs + [c]).quality == TotalsWith(gain, cs).quality
  {
    assert (cs + [c])[..|cs + [c]| - 1] == cs;
  }

  /** `gpa` in `renderStats()` when every row gains at most `m` points per
      unit: quality divided by units, or 0 when no unit was counted. It lies
      between 0 and `m`, and times the units gives back the quality. */
  function GpaWith(gain: Course -> real, m: real, cs: seq<Course>): (g: real)
    requires m >= 0.0 && Dominated(gain, Flat(m))
    ensures 0.0 <= g <= m
    ensures (forall i :: 0 <= i < |cs| ==> !Counted(cs[i])) ==> g == 0.0
    ensures TotalsWith(gain, cs).units > 0.0 ==>
      g * TotalsWith(gain, cs).units == TotalsWith(gain, cs).quality
  {
    var t := TotalsWith(gain, cs);
    UnitsCountCountedRows(gain, cs);
    TotalsBounded(gain, m, cs);
    if t.units > 0.0 then
      DivideBounded(t.quality, t.units, m);
      t.quality / t.units
    else 0.0
  }

  lemma DivideBounded(q: real, u: real, m: real)
    requires u > 0.0 && 0.0 <= q <= m * u
    ensures 0.0 <= q / u <= m
    ensures (q / u) * u == q
  {
  }

  /** The gain of a row whose score earns `points(score)`: unit × points
      (0 for a row whose unit is not a finite number, which is never counted). */
  function Weighted(points: Num -> real): Course -> real {
    (c: Course) => if c.unit.Finite? then c.unit.value * points(c.score) else 0.0
  }

  lemma ProductBounded(u: real, p: real, m: real)
    requires u > 0.0 && 0.0 <= p <= m
    ensures 0.0 <= u * p <= m * u
  {
  }

  /** When every score earns between 0 and `m`, every counted row gains
      between 0 and `m` per unit. */
  lemma WeightedDominated(points: Num -> real, m: real)
    requires forall v :: 0.0 <= points(v) <= m
    ensures Dominated(Weighted(points), Flat(m))
  {
    forall c: Course | Counted(c)
      ensures 0.0 <= Weighted(points)(c) <= Flat(m)(c)
    {
      ProductBounded(c.unit.value, points(c.score), m);
    }
  }

  /** A counted row whose score earns nothing adds its units and no quality. */
  lemma UnearnedRowAddsUnitsOnly(points: Num -> real, cs: seq<Course>, c: Course)
    requires Counted(c) && points(c.score) == 0.0
    ensures TotalsWith(Weighted(points), cs + [c]).units == TotalsWith(Weighted(points), cs).units + c.unit.value
    ensures TotalsWith(Weighted(points), cs + [c]).quality == TotalsWith(Weighted(points), cs).quality
  {
    assert Weighted(points)(c) == 0.0;
    PointlessRowAddsUnitsOnly(Weighted(points), cs, c);
  }

  /** `gradeFromScore(score).points` on the selected scale: between 0 and
      `maxPoints()`, and 0 for a score outside 0..100. */
  function Earned(country: Country, score: Num): (p: real)
    ensures 0.0 <= p <= MaxPoints(country)
    ensures !InPercentRange(score) ==> p == 0.0
    ensures InPercentRange(score) ==>
      exists i :: IsBestBand(ScaleOf(country), score.value, i) && p == Points(ScaleOf(country)[i])
  {
    GradeAtMostMax(country, score);
    if InPercentRange(score) then
      GradeFromScoreIsBest(country, score);
      TenthsToPoints(GradeFromScore(country, score).tenths)
    else
      TenthsToPoints(GradeFromScore(country, score).tenths)
  }

  /** The points of the selected scale, as a function of the score. */
  function PointsOf(country: Country): Num -> real {
    (score: Num) => Earned(country, score)
  }

  lemma PointsOfBounded(country: Country)
    ensures MaxPoints(country) >= 0.0
    ensures forall v :: 0.0 <= PointsOf(country)(v) <= MaxPoints(country)
  {
    assert 0.0 <= Earned(country, NaN) <= MaxPoints(country);
  }

  /** With gains `unit * points(score)`, a counted row adds its units and
      its units times the points its score earns. */
  lemma WeightedRowAdds(points: Num -> real, cs: seq<Course>, c: Course)
    requires Counted(c)
    ensures TotalsWith(Weighted(points), cs + [c]).units == TotalsWith(Weighted(points), cs).units + c.unit.value
    ensures TotalsWith(Weighted(points), cs + [c]).quality
         == TotalsWith(Weighted(points), cs).quality + c.unit.value * points(c.score)
  {
    CountedRowAdds(Weighted(points), cs, c);
    assert Weighted(points)(c) == c.unit.value * points(c.score);
  }

  /** The totals `renderStats()` computes for the selected scale. */
  function TotalsOf(country: Country, cs: seq<Course>): Totals {
    TotalsWith(Weighted(PointsOf(country)), cs)
  }

  /** The GPA `renderStats()` shows for the selected scale: between 0 and
      `maxPoints()`, and 0 when no row is counted (`GpaWith` relates it to
      the totals). */
  function Gpa(country: Country, cs: seq<Course>): (g: real)
    ensures 0.0 <= g <= MaxPoints(country)
    ensures (forall i :: 0 <= i < |cs| ==> !Counted(cs[i])) ==> g == 0.0
  {
    PointsOfBounded(country);
    WeightedDominated(PointsOf(country), MaxPoints(country));
    GpaWith(Weighted(PointsOf(country)), MaxPoints(country), cs)
  }

  /** A counted row with a finite score outside 0..100 adds its units and
      no quality points. */
  lemma OutOfRangeScoreAddsUnitsOnly(country: Country, cs: seq<Course>, c: Course)
    requires Counted(c) && !InPercentRange(c.score)
    ensures TotalsOf(country, cs + [c]).units == TotalsOf(country, cs).units + c.unit.value
    ensures TotalsOf(country, cs + [c]).quality == TotalsOf(country, cs).quality
  {
    assert PointsOf(country)(c.score) == 0.0;
    UnearnedRowAddsUnitsOnly(PointsOf(country), cs, c);
  }

  /** A freshly reset page shows 3 units and a GPA of 0: its one row scores
      0, the lowest Nigerian band. */
  lemma ResetAllGpaIsZero(freshId: string)
    ensures TotalsOf(Nigeria, ResetAll(freshId).courses) == Totals(3.0, 0.0)
    ensures Gpa(Nigeria, ResetAll(freshId).courses) == 0.0
  {
    var cs := ResetAll(freshId).courses;
    var gain := Weighted(PointsOf(Nigeria));
    BandBoundaries(Nigeria, 5, 0.0);
    assert Earned(Nigeria, cs[0].score) == 0.0;
    assert gain(cs[0]) == 0.0;
    assert TotalsWith(gain, cs) == Totals(3.0, 0.0) by {
      assert cs[..0] == [];
    }
  }

  /** Each counted row adds its units, and its units times the points
      `gradeFromScore` gives its score on the selected scale. */
  lemma TotalsOfAddsRow(country: Country, cs: seq<Course>, c: Course)
    requires Counted(c)
    ensures TotalsOf(country, cs + [c]).units == TotalsOf(country, cs).units + c.unit.value
    ensures TotalsOf(country, cs + [c]).quality
         == TotalsOf(country, cs).quality + c.unit.value * PointsOf(country)(c.score)
  {
    WeightedRowAdds(PointsOf(country), cs, c);
  }

  /** The points of a score in 0..100 are those of the best band it
      reaches on the selected scale. */
  lemma PointsOfBestBand(country: Country, score: Num)
    requires InPercentRange(score)
    ensures exists i :: IsBestBand(ScaleOf(country), score.value, i) && PointsOf(country)(score) == Points(ScaleOf(country)[i])
  {
    assert PointsOf(country)(score) == Earned(country, score);
  }
}

=== FILE: store.dfy ===
/** The database the two handlers share, as plain sequences of rows: the
    `dbo.Submissions` table and the `dbo.Courses` table. A column that can
    hold SQL NULL is an `Option`. */
module Store {

  import opened Wrappers
  import opened Text
  import opened JsNumber

  /** A row of `dbo.Submissions`; `id` is the key the database generated. */
  datatype SubmissionRow = SubmissionRow(
    id: string,
    studentName: Option<string>,
    country: Option<string>,
    scaleLegend: Option<string>)

  /** A row of `dbo.Courses`. `studentKey` is the column the read handler
      filters on; nothing in the write handler fills it in. */
  datatype CourseRow = CourseRow(
    submissionId: string,
    title: string,
    unit: Num,
    score: Num,
    studentKey: Option<string>)

  datatype Store = Store(submissions: seq<SubmissionRow>, courses: seq<CourseRow>)

  /** The columns the read handler selects from a course row. */
  datatype CourseView = CourseView(title: string, unit: Num, score: Num)

  function View(r: CourseRow): CourseView {
    CourseView(r.title, r.unit, r.score)
  }

  /** `(x || '').trim().toLowerCase()` for a column that may be NULL. */
  function KeyPart(x: Option<string>): string {
    Lower(Trim(x.GetOr("")))
  }

  /** The key that groups a student's courses: the normalised name and the
      normalised country, joined by '|'. */
  function StudentKeyOf(name: Option<string>, country: Option<string>): (k: string)
    ensures |k| == |KeyPart(name)| + 1 + |KeyPart(country)|
    ensures k[|KeyPart(name)|] == '|'
    ensures k[..|KeyPart(name)|] == KeyPart(name)
    ensures k[|KeyPart(name)| + 1..] == KeyPart(country)
  {
    KeyPart(name) + "|" + KeyPart(country)
  }

  /** A NULL column and an empty or blank one give the same key part. */
  lemma KeyPartOfNull(s: string)
    requires IsBlank(s)
    ensures KeyPart(None) == KeyPart(Some(s)) == []
  {
    TrimEmptyIffBlank(s);
    TrimEmptyIffBlank("");
  }

  /** Whitespace around the value and the case of its ASCII letters do not
      change its key part. */
  lemma KeyPartIgnoresPaddingAndCase(pre: string, s: string, post: string)
    requires IsBlank(pre) && IsBlank(post)
    ensures KeyPart(Some(pre + s + post)) == KeyPart(Some(Lower(s)))
  {
    TrimIgnoresPadding(pre, s, post);
    TrimLower(s);
    LowerIdempotent(Trim(s));
  }

  /** The student key ignores padding and ASCII case in both the name and
      the country. */
  lemma StudentKeyIgnoresPaddingAndCase(
    name: string, country: string,
    namePre: string, namePost: string, countryPre: string, countryPost: string)
    requires IsBlank(namePre) && IsBlank(namePost)
    requires IsBlank(countryPre) && IsBlank(countryPost)
    ensures StudentKeyOf(Some(namePre + name + namePost), Some(countryPre + country + countryPost))
         == StudentKeyOf(Some(Lower(name)), Some(Lower(country)))
  {
    KeyPartIgnoresPaddingAndCase(namePre, name, namePost);
    KeyPartIgnoresPaddingAndCase(countryPre, country, countryPost);
  }

  /** When neither normalised name contains '|', equal keys mean equal
      normalised names and equal normalised countries. */
  lemma StudentKeySeparates(n1: Option<string>, c1: Option<string>, n2: Option<string>, c2: Option<string>)
    requires '|' !in KeyPart(n1) && '|' !in KeyPart(n2)
    requires StudentKeyOf(n1, c1) == StudentKeyOf(n2, c2)
    ensures KeyPart(n1) == KeyPart(n2) && KeyPart(c1) == KeyPart(c2)
  {
    SplitAtFirst(KeyPart(n1), KeyPart(c1), KeyPart(n2), KeyPart(c2), '|');
  }

  /** Without that proviso the key is ambiguous: the students ("a|b", "c")
      and ("a", "b|c") share the key "a|b|c". */
  lemma StudentKeyCollision()
    ensures StudentKeyOf(Some("a|b"), Some("c")) == StudentKeyOf(Some("a"), Some("b|c"))
    ensures KeyPart(Some("a|b")) != KeyPart(Some("a"))
  {
    assert Trim("a|b") == "a|b";
    assert Trim("c") == "c";
    assert Trim("a") == "a";
    assert Trim("b|c") == "b|c";
  }

  /** `SELECT Title, Unit, Score FROM dbo.Courses WHERE StudentKey = @key`,
      before the ordering: the rows carrying exactly that key, in table
      order. A NULL key never compares equal. */
  function KeyedViews(rows: seq<CourseRow>, key: string): (r: seq<CourseView>)
    ensures |r| <= |rows|
    ensures forall v :: v in r <==>
      exists i :: 0 <= i < |rows| && rows[i].studentKey == Some(key) && View(rows[i]) == v
  {
    if rows == [] then []
    else
      var rest := KeyedViews(rows[1..], key);
      assert forall i :: 1 <= i < |rows| ==> rows[i] == rows[1..][i - 1];
      if rows[0].studentKey == Some(key) then [View(rows[0])] + rest else rest
  }

  /** Filtering distributes over concatenation. */
  lemma {:induction false} KeyedViewsAppend(a: seq<CourseRow>, b: seq<CourseRow>, key: string)
    ensures KeyedViews(a + b, key) == KeyedViews(a, key) + KeyedViews(b, key)
  {
    if a == [] {
      assert a + b == b;
    } else {
      assert (a + b)[0] == a[0];
      assert (a + b)[1..] == a[1..] + b;
      KeyedViewsAppend(a[1..], b, key);
    }
  }

  /** Rows carrying no key, or another key, never match. */
  lemma {:induction false} KeyedViewsOfOtherKeys(rows: seq<CourseRow>, key: string)
    requires forall i :: 0 <= i < |rows| ==> rows[i].studentKey != Some(key)
    ensures KeyedViews(rows, key) == []
  {
    if rows != [] {
      KeyedViewsOfOtherKeys(rows[1..], key);
    }
  }

  /** Rows that all carry the key are all kept, in order. */
  lemma {:induction false} KeyedViewsOfKeyed(rows: seq<CourseRow>, key: string)
    requires forall i :: 0 <= i < |rows| ==> rows[i].studentKey == Some(key)
    ensures |KeyedViews(rows, key)| == |rows|
    ensures forall i :: 0 <= i < |rows| ==> KeyedViews(rows, key)[i] == View(rows[i])
  {
    if rows != [] {
      KeyedViewsOfKeyed(rows[1..], key);
    }
  }
}

=== FILE: submit.dfy ===
/** The submissions endpoint: checks the posted body, then writes one
    submission row and one course row per posted course inside a single
    transaction, which either commits every insert or none. */
module SubmitHandler {

  import opened Wrappers
  import opened JsNumber
  import opened Store

  /** A top-level string field of the body: missing (so the destructuring
      default applies), explicitly `null`, or a string. */
  datatype RawField = Absent | Null | Given(s: string)

  /** An element of `courses`: `null`/`undefined` (reading `.title` from it
      throws), or any other value, whose `title` may be missing and whose
      `unit` and `score` are what `Number(...)` makes of them; a missing
      property reads as `undefined`, so a number or a string element is a
      `CourseObject(None, NaN, NaN)`. */
  datatype RawCourse = NoObject | CourseObject(title: Option<string>, unit: Num, score: Num)

  /** The `courses` field: anything that is not an array, or an array. */
  datatype RawCourses = NotAnArray | ArrayOf(items: seq<RawCourse>)

  /** The request body after `req.body || {}`; `None` is a missing body. */
  datatype Body = Body(studentName: RawField, country: RawField, scaleLegend: RawField, courses: RawCourses)

  /** What the database does on this call: the step that fails, if any.
      `CourseInsertFails(k)` is the insert of the `k`-th course (from 0). */
  datatype Fault =
    | NoFault
    | PoolFails
    | BeginFails
    | SubmissionInsertFails
    | CourseInsertFails(k: nat)
    | CommitFails

  datatype PostResponse =
    | Created(id: string)
    | BadRequest
    | ServerError

  function Status(r: PostResponse): (code: int)
    ensures code == 201 <==> r.Created?
    ensures code == 400 <==> r.BadRequest?
    ensures code == 500 <==> r.ServerError?
  {
    match r
    case Created(_) => 201
    case BadRequest => 400
    case ServerError => 500
  }

  datatype Outcome = Outcome(response: PostResponse, store: Store)

  /** `const { f = d } = body`: the default replaces only a missing field;
      `null` is stored as NULL. */
  function Field(f: RawField, d: string): (r: Option<string>)
    ensures f.Absent? ==> r == Some(d)
    ensures f.Null? ==> r.None?
    ensures f.Given? ==> r == Some(f.s)
  {
    match f
    case Absent => Some(d)
    case Null => None
    case Given(s) => Some(s)
  }

  /** Unlike `x || d`, the destructuring default keeps an explicit empty
      string: only a missing field takes the default. */
  lemma FieldKeepsEmptyText(d: string)
    ensures Field(Given(""), d) == Some("")
    ensures d != "" ==> Field(Given(""), d) != Field(Absent, d)
  {
  }

  /** The input check: `courses` is a non-empty array. */
  predicate HasCourses(body: Option<Body>) {
    body.Some? && body.value.courses.ArrayOf? && |body.value.courses.items| > 0
  }

  /** The submission row the handler inserts. */
  function SubmissionOf(b: Body, id: string): (row: SubmissionRow)
    ensures row.id == id
    ensures row.studentName == Field(b.studentName, "")
    ensures row.country == Field(b.country, "nigeria")
    ensures row.scaleLegend == Field(b.scaleLegend, "")
  {
    SubmissionRow(id, Field(b.studentName, ""), Field(b.country, "nigeria"), Field(b.scaleLegend, ""))
  }

  /** The course row for one posted course: the title through
      `String(title || "")`, the numbers through `Number(x) || 0`, and no
      student key. Units and scores are not range-checked. */
  function CourseRowOf(c: RawCourse, id: string): (row: CourseRow)
    requires c.CourseObject?
    ensures row.submissionId == id && row.studentKey.None?
    ensures row.title == (if c.title.Some? then c.title.value else "")
    ensures !row.unit.NaN? && (c.unit.NaN? ==> row.unit == Finite(0.0)) && (!c.unit.NaN? ==> row.unit == c.unit)
    ensures !row.score.NaN? && (c.score.NaN? ==> row.score == Finite(0.0)) && (!c.score.NaN? ==> row.score == c.score)
  {
    CourseRow(id, c.title.GetOr(""), OrZero(c.unit), OrZero(c.score), None)
  }

  /** The fault strikes one of the `n` course inserts. */
  predicate HitsCourse(f: Fault, n: nat) {
    f.CourseInsertFails? && f.k < n
  }

  /** The loop over `courses` from position `from`: the rows to insert, or
      `None` when an element is `null`/`undefined` or its insert fails. */
  function StageCourses(items: seq<RawCourse>, id: string, fault: Fault, from: nat): (r: Option<seq<CourseRow>>)
    ensures r.Some? <==>
      (forall i :: 0 <= i < |items| ==> items[i].CourseObject?) &&
      !(fault.CourseInsertFails? && from <= fault.k < from + |items|)
    ensures r.Some? ==> |r.value| == |items|
    ensures r.Some? ==> forall i :: 0 <= i < |items| ==> r.value[i] == CourseRowOf(items[i], id)
    decreases |items|
  {
    if items == [] then Some([])
    else if items[0].NoObject? then None
    else if fault == CourseInsertFails(from) then None
    else
      match StageCourses(items[1..], id, fault, from + 1)
      case None =>
        assert !(forall i :: 0 <= i < |items| ==> items[i].CourseObject?) ||
          (fault.CourseInsertFails? && from <= fault.k < from + |items|) by {
          if forall i :: 0 <= i < |items| ==> items[i].CourseObject? {
            assert forall i :: 0 <= i < |items| - 1 ==> items[1..][i] == items[i + 1];
          }
        }
        None
      case Some(rest) =>
        assert forall i :: 0 <= i < |items| - 1 ==> items[1..][i] == items[i + 1];
        Some([CourseRowOf(items[0], id)] + rest)
  }

  /** Every element is an object and no insert fails: the loop completes. */
  predicate LoopCompletes(items: seq<RawCourse>, fault: Fault) {
    (forall i :: 0 <= i < |items| ==> items[i].CourseObject?) && !HitsCourse(fault, |items|)
  }

  /** The handler. `newId` is the id the database generates for the
      submission and `fault` the step of the database work that fails. */
  function Post(body: Option<Body>, st: Store, newId: string, fault: Fault): (o: Outcome)
    ensures o.response.BadRequest? <==> !HasCourses(body)
    ensures !o.response.Created? ==> o.store == st
    ensures o.response.Created? <==>
      HasCourses(body) && LoopCompletes(body.value.courses.items, fault) &&
      fault !in {PoolFails, BeginFails, SubmissionInsertFails, CommitFails}
    ensures o.response.Created? ==> o.response.id == newId
    ensures o.response.Created? ==>
      var items := body.value.courses.items;
      && o.store.submissions == st.submissions + [SubmissionOf(body.value, newId)]
      && |o.store.courses| == |st.courses| + |items|
      && o.store.courses[..|st.courses|] == st.courses
      && forall i :: 0 <= i < |items| ==> o.store.courses[|st.courses| + i] == CourseRowOf(items[i], newId)
  {
    if !HasCourses(body) then Outcome(BadRequest, st)
    else if fault == PoolFails || fault == BeginFails || fault == SubmissionInsertFails then
      Outcome(ServerError, st)
    else
      var b := body.value;
      match StageCourses(b.courses.items, newId, fault, 0)
      case None => Outcome(ServerError, st)
      case Some(rows) =>
        if fault == CommitFails then Outcome(ServerError, st)
        else Outcome(Created(newId), Store(st.submissions + [SubmissionOf(b, newId)], st.courses + rows))
  }

  /** The transaction is all-or-nothing: the store is either unchanged or
      gains exactly one submission row and one course row per posted course. */
  lemma AllOrNothing(body: Option<Body>, st: Store, newId: string, fault: Fault)
    ensures var o := Post(body, st, newId, fault);
      || o.store == st
      || (&& HasCourses(body)
          && |o.store.submissions| == |st.submissions| + 1
          && |o.store.courses| == |st.courses| + |body.value.courses.items|)
  {
  }

  /** A rejected body never reaches the database: the answer is 400 whatever
      the database would have done. */
  lemma BadRequestIgnoresDatabase(body: Option<Body>, st: Store, id1: string, f1: Fault, id2: string, f2: Fault)
    requires !HasCourses(body)
    ensures Post(body, st, id1, f1) == Post(body, st, id2, f2) == Outcome(BadRequest, st)
  {
  }

  /** Every course row written by a successful post belongs to the new
      submission and carries no student key. */
  lemma CreatedRowsBelongToSubmission(body: Option<Body>, st: Store, newId: string, fault: Fault)
    requires Post(body, st, newId, fault).response.Created?
    ensures var o := Post(body, st, newId, fault);
      forall i :: |st.courses| <= i < |o.store.courses| ==>
        o.store.courses[i].submissionId == newId && o.store.courses[i].studentKey.None?
  {
    var o := Post(body, st, newId, fault);
    var items := body.value.courses.items;
    forall i | |st.courses| <= i < |o.store.courses|
      ensures o.store.courses[i].submissionId == newId && o.store.courses[i].studentKey.None?
    {
      assert o.store.courses[|st.courses| + (i - |st.courses|)] == CourseRowOf(items[i - |st.courses|], newId);
    }
  }
}

=== FILE: text.dfy ===
/** String helpers the application relies on: JavaScript's `trim`, an
    ASCII `toLowerCase`, decimal rendering of naturals and list joining. */
module Text {

  import opened Wrappers

  /** The characters `String.prototype.trim` removes: the ECMAScript
      WhiteSpace and LineTerminator code points. */
  predicate IsJsWhitespace(c: char) {
    || c == '\t' || c == '\n' || c == '\U{000B}' || c == '\U{000C}' || c == '\r'
    || c == ' ' || c == '\U{00A0}' || c == '\U{1680}'
    || ('\U{2000}' <= c <= '\U{200A}')
    || c == '\U{2028}' || c == '\U{2029}' || c == '\U{202F}' || c == '\U{205F}'
    || c == '\U{3000}' || c == '\U{FEFF}'
  }

  /** Every character of `s` is whitespace (the empty string included). */
  predicate IsBlank(s: string) {
    forall i :: 0 <= i < |s| ==> IsJsWhitespace(s[i])
  }

  /** Drops leading whitespace. */
  function TrimStart(s: string): (r: string)
    ensures |r| <= |s|
  {
    if |s| > 0 && IsJsWhitespace(s[0]) then TrimStart(s[1..]) else s
  }

  /** Drops trailing whitespace. */
  function TrimEnd(s: string): (r: string)
    ensures |r| <= |s|
  {
    if |s| > 0 && IsJsWhitespace(s[|s| - 1]) then TrimEnd(s[..|s| - 1]) else s
  }

  /** `s.trim()`. */
  function Trim(s: string): string {
    TrimEnd(TrimStart(s))
  }

  /** `TrimStart` removes a blank prefix and stops at the first other character. */
  lemma {:induction false} TrimStartSpec(s: string)
    ensures TrimStart(s) == s[|s| - |TrimStart(s)|..]
    ensures TrimStart(s) == [] || !IsJsWhitespace(TrimStart(s)[0])
    ensures IsBlank(s[..|s| - |TrimStart(s)|])
  {
    if |s| > 0 && IsJsWhitespace(s[0]) {
      TrimStartSpec(s[1..]);
      var r := TrimStart(s[1..]);
      assert s[..|s| - |r|] == [s[0]] + s[1..][..|s| - 1 - |r|];
    }
  }

  /** `TrimEnd` removes a blank suffix and stops at the last other character. */
  lemma {:induction false} TrimEndSpec(s: string)
    ensures TrimEnd(s) == s[..|TrimEnd(s)|]
    ensures TrimEnd(s) == [] || !IsJsWhitespace(TrimEnd(s)[|TrimEnd(s)| - 1])
    ensures IsBlank(s[|TrimEnd(s)|..])
  {
    if |s| > 0 && IsJsWhitespace(s[|s| - 1]) {
      TrimEndSpec(s[..|s| - 1]);
      var r := TrimEnd(s[..|s| - 1]);
      assert s[|r|..] == s[..|s| - 1][|r|..] + [s[|s| - 1]];
    }
  }

  /** `!s.trim()` holds exactly when `s` is made of whitespace only. */
  lemma TrimEmptyIffBlank(s: string)
    ensures Trim(s) == [] <==> IsBlank(s)
  {
    var t := TrimStart(s);
    TrimStartSpec(s);
    TrimEndSpec(t);
    if Trim(s) == [] {
      assert s == s[..|s| - |t|] + t;
      assert IsBlank(t) by { assert t[|Trim(s)|..] == t; }
    } else {
      var r := Trim(s);
      assert !IsJsWhitespace(r[0]);
      assert r[0] == t[0];
      assert t[0] == s[|s| - |t|];
    }
  }

  /** Surrounding whitespace never reaches the trimmed result. */
  lemma {:induction false} TrimIgnoresPadding(pre: string, s: string, post: string)
    requires IsBlank(pre) && IsBlank(post)
    ensures Trim(pre + s + post) == Trim(s)
  {
    assert pre + s + post == pre + (s + post);
    TrimStartSkipsBlank(pre, s + post);
    assert TrimStart(pre + s + post) == TrimStart(s + post);
    TrimStartAppend(s, post);
    if TrimStart(s) == [] {
      TrimStartOfBlank(post);
      assert TrimStart(s + post) == [];
      assert Trim(s) == [];
    } else {
      assert TrimStart(s + post) == TrimStart(s) + post;
      TrimEndSkipsBlank(TrimStart(s), post);
    }
  }

  lemma {:induction false} TrimStartSkipsBlank(pre: string, s: string)
    requires IsBlank(pre)
    ensures TrimStart(pre + s) == TrimStart(s)
  {
    if pre != [] {
      assert (pre + s)[0] == pre[0];
      assert (pre + s)[1..] == pre[1..] + s;
      TrimStartSkipsBlank(pre[1..], s);
    } else {
      assert pre + s == s;
    }
  }

  lemma TrimStartOfBlank(s: string)
    requires IsBlank(s)
    ensures TrimStart(s) == []
  {
  }

  /** Trailing text only matters to `TrimStart` once the prefix is all blank. */
  lemma {:induction false} TrimStartAppend(s: string, post: string)
    ensures TrimStart(s) != [] ==> TrimStart(s + post) == TrimStart(s) + post
    ensures TrimStart(s) == [] ==> TrimStart(s + post) == TrimStart(post)
  {
    if s == [] {
      assert s + post == post;
    } else {
      assert (s + post)[0] == s[0];
      assert (s + post)[1..] == s[1..] + post;
      if IsJsWhitespace(s[0]) {
        TrimStartAppend(s[1..], post);
      }
    }
  }

  lemma {:induction false} TrimEndSkipsBlank(s: string, post: string)
    requires IsBlank(post)
    ensures TrimEnd(s + post) == TrimEnd(s)
  {
    if post != [] {
      var p := post[..|post| - 1];
      assert (s + post)[..|s + post| - 1] == s + p;
      TrimEndSkipsBlank(s, p);
    } else {
      assert s + post == s;
    }
  }

  /** An upper-case ASCII letter mapped to lower case; every other character unchanged. */
  function LowerChar(c: char): char {
    if 'A' <= c <= 'Z' then (c as int + 32) as char else c
  }

  /** `s.toLowerCase()` restricted to the ASCII letters. */
  function Lower(s: string): (r: string)
    ensures |r| == |s|
    ensures forall i :: 0 <= i < |s| ==> r[i] == LowerChar(s[i])
  {
    seq(|s|, i requires 0 <= i < |s| => LowerChar(s[i]))
  }

  /** Lower-casing is idempotent. */
  lemma LowerIdempotent(s: string)
    ensures Lower(Lower(s)) == Lower(s)
  {
  }

  /** Lower-casing leaves whitespace alone, so it commutes with trimming. */
  lemma {:induction false} TrimStartLower(s: string)
    ensures TrimStart(Lower(s)) == Lower(TrimStart(s))
  {
    if |s| > 0 && IsJsWhitespace(s[0]) {
      assert Lower(s)[1..] == Lower(s[1..]);
      TrimStartLower(s[1..]);
    }
  }

  lemma {:induction false} TrimEndLower(s: string)
    ensures TrimEnd(Lower(s)) == Lower(TrimEnd(s))
  {
    if |s| > 0 && IsJsWhitespace(s[|s| - 1]) {
      assert Lower(s)[..|s| - 1] == Lower(s[..|s| - 1]);
      TrimEndLower(s[..|s| - 1]);
    }
  }

  lemma TrimLower(s: string)
    ensures Trim(Lower(s)) == Lower(Trim(s))
  {
    TrimStartLower(s);
    TrimEndLower(TrimStart(s));
  }

  /** A decimal digit character. */
  predicate IsDigit(c: char) {
    '0' <= c <= '9'
  }

  function DigitChar(d: nat): (c: char)
    requires d < 10
    ensures IsDigit(c) && c as int - '0' as int == d
  {
    ('0' as int + d) as char
  }

  /** The decimal rendering JavaScript gives a non-negative integer. */
  function NatToString(n: nat): (r: string)
    ensures |r| > 0
    ensures forall i :: 0 <= i < |r| ==> IsDigit(r[i])
    ensures n > 0 ==> r[0] != '0'
  {
    if n < 10 then [DigitChar(n)] else NatToString(n / 10) + [DigitChar(n % 10)]
  }

  /** Reads a non-empty all-digit string back as a number. */
  function ParseNat(s: string): (r: Option<nat>)
  {
    if s == [] then None
    else if !IsDigit(s[|s| - 1]) then None
    else
      var d := s[|s| - 1] as int - '0' as int;
      if |s| == 1 then Some(d)
      else match ParseNat(s[..|s| - 1])
        case None => None
        case Some(m) => Some(m * 10 + d)
  }

  /** Reading back a rendered number gives the number itself. */
  lemma {:induction false} ParseNatToString(n: nat)
    ensures ParseNat(NatToString(n)) == Some(n)
  {
    if n >= 10 {
      var s := NatToString(n);
      assert s[..|s| - 1] == NatToString(n / 10);
      ParseNatToString(n / 10);
    }
  }

  /** `xs.join(sep)`. */
  function Join(xs: seq<string>, sep: string): string {
    if xs == [] then []
    else if |xs| == 1 then xs[0]
    else xs[0] + sep + Join(xs[1..], sep)
  }

  /** The position of the first occurrence of `c` in `s`, if any. */
  function IndexOf(s: string, c: char): (r: Option<nat>)
    ensures r.None? <==> c !in s
    ensures r.Some? ==> r.value < |s| && s[r.value] == c && c !in s[..r.value]
  {
    if s == [] then None
    else if s[0] == c then Some(0)
    else match IndexOf(s[1..], c)
      case None => None
      case Some(i) => assert s[..i + 1] == [s[0]] + s[1..][..i]; Some(i + 1)
  }

  /** Splits `s` at each ", " (the separator the grading-scale legend uses). */
  function SplitList(s: string): (r: seq<string>)
    decreases |s|
  {
    match IndexOf(s, ',')
    case None => [s]
    case Some(i) =>
      if i + 1 < |s| && s[i + 1] == ' ' then [s[..i]] + SplitList(s[i + 2..])
      else [s]
  }

  /** Splitting a comma-free piece followed by ", " peels that piece off. */
  lemma SplitListStep(x: string, rest: string)
    requires ',' !in x
    ensures SplitList(x + ", " + rest) == [x] + SplitList(rest)
  {
    var s := x + ", " + rest;
    assert s == x + (", " + rest);
    IndexOfAfterPrefix(x, ", " + rest, ',');
    assert s[|x| + 1] == ' ';
    assert s[..|x|] == x;
    assert s[|x| + 2..] == rest;
  }

  /** Joining with ", " and splitting again recovers the pieces, provided no
      piece contains a comma. */
  lemma {:induction false} SplitJoin(xs: seq<string>)
    requires |xs| > 0
    requires forall k :: 0 <= k < |xs| ==> ',' !in xs[k]
    ensures SplitList(Join(xs, ", ")) == xs
  {
    if |xs| == 1 {
      assert IndexOf(xs[0], ',').None?;
    } else {
      SplitListStep(xs[0], Join(xs[1..], ", "));
      SplitJoin(xs[1..]);
      assert [xs[0]] + xs[1..] == xs;
    }
  }

  /** The first `c` of `x + t` is the one `t` starts with when `x` has none. */
  lemma {:induction false} IndexOfAfterPrefix(x: string, t: string, c: char)
    requires c !in x
    requires |t| > 0 && t[0] == c
    ensures IndexOf(x + t, c) == Some(|x|)
  {
    if x != [] {
      assert (x + t)[0] == x[0];
      assert (x + t)[1..] == x[1..] + t;
      IndexOfAfterPrefix(x[1..], t, c);
    } else {
      assert x + t == t;
    }
  }

  /** Cutting at the first `c` is unambiguous: two ways of writing a string
      as a `c`-free part, then `c`, then a rest, are the same way. */
  lemma SplitAtFirst(a: string, x: string, b: string, y: string, c: char)
    requires c !in a && c !in b
    requires a + [c] + x == b + [c] + y
    ensures a == b && x == y
  {
    var k := a + [c] + x;
    assert k == a + ([c] + x);
    assert k == b + ([c] + y);
    IndexOfAfterPrefix(a, [c] + x, c);
    IndexOfAfterPrefix(b, [c] + y, c);
    assert a == k[..|a|];
    assert b == k[..|b|];
    assert x == k[|a| + 1..];
    assert y == k[|b| + 1..];
  }
}

=== FILE: title_order.dfy ===
/** `ORDER BY Title` on the selected course rows: titles compared character
    by character on their code points, a proper prefix first. */
module TitleOrder {

  import opened Store

  /** `a` sorts no later than `b`. */
  predicate TitleLe(a: string, b: string) {
    if a == [] then true
    else if b == [] then false
    else if a[0] != b[0] then a[0] < b[0]
    else TitleLe(a[1..], b[1..])
  }

  lemma {:induction false} TitleLeTotal(a: string, b: string)
    ensures TitleLe(a, b) || TitleLe(b, a)
  {
    if a != [] && b != [] && a[0] == b[0] {
      TitleLeTotal(a[1..], b[1..]);
    }
  }

  lemma {:induction false} TitleLeTransitive(a: string, b: string, c: string)
    requires TitleLe(a, b) && TitleLe(b, c)
    ensures TitleLe(a, c)
  {
    if a != [] && b != [] && c != [] && a[0] == b[0] && b[0] == c[0] {
      TitleLeTransitive(a[1..], b[1..], c[1..]);
    }
  }

  lemma {:induction false} TitleLeAntisymmetric(a: string, b: string)
    requires TitleLe(a, b) && TitleLe(b, a)
    ensures a == b
  {
    if a != [] && b != [] {
      TitleLeAntisymmetric(a[1..], b[1..]);
    }
  }

  /** The rows are in title order. */
  predicate SortedByTitle(s: seq<CourseView>) {
    forall i, j :: 0 <= i < j < |s| ==> TitleLe(s[i].title, s[j].title)
  }

  /** Places `x` before the first row whose title sorts after it. */
  function InsertByTitle(x: CourseView, s: seq<CourseView>): (r: seq<CourseView>)
    requires SortedByTitle(s)
    ensures SortedByTitle(r)
    ensures multiset(r) == multiset(s) + multiset{x}
    ensures |r| == |s| + 1
  {
    if s == [] then [x]
    else if TitleLe(x.title, s[0].title) then
      InsertFrontSorted(x, s);
      [x] + s
    else
      var rest := InsertByTitle(x, s[1..]);
      InsertLaterSorted(x, s, rest);
      assert s == [s[0]] + s[1..];
      [s[0]] + rest
  }

  /** A row that sorts no later than the first row of an ordered list can
      go in front of it. */
  lemma InsertFrontSorted(x: CourseView, s: seq<CourseView>)
    requires SortedByTitle(s) && s != [] && TitleLe(x.title, s[0].title)
    ensures SortedByTitle([x] + s)
  {
    forall j | 0 <= j < |s|
      ensures TitleLe(x.title, s[j].title)
    {
      if j > 0 { TitleLeTransitive(x.title, s[0].title, s[j].title); }
    }
    ConsSorted(x, s);
  }

  /** A row that sorts after the first row of an ordered list goes into
      the rest of it, and the first row stays in front. */
  lemma InsertLaterSorted(x: CourseView, s: seq<CourseView>, rest: seq<CourseView>)
    requires SortedByTitle(s) && s != [] && !TitleLe(x.title, s[0].title)
    requires SortedByTitle(rest) && multiset(rest) == multiset(s[1..]) + multiset{x}
    ensures SortedByTitle([s[0]] + rest)
  {
    TitleLeTotal(x.title, s[0].title);
    assert forall j :: 0 <= j < |s[1..]| ==> TitleLe(s[0].title, s[1..][j].title) by {
      assert forall j :: 0 <= j < |s[1..]| ==> s[1..][j] == s[j + 1];
    }
    LowerBoundOfPermutation(s[0].title, x, s[1..], rest);
    ConsSorted(s[0], rest);
  }

  /** A row whose title sorts before every title of an ordered list can
      go in front of it. */
  lemma ConsSorted(h: CourseView, r: seq<CourseView>)
    requires SortedByTitle(r)
    requires forall k :: 0 <= k < |r| ==> TitleLe(h.title, r[k].title)
    ensures SortedByTitle([h] + r)
  {
    var t := [h] + r;
    forall i, j | 0 <= i < j < |t|
      ensures TitleLe(t[i].title, t[j].title)
    {
      assert t[j] == r[j - 1];
      if i > 0 { assert t[i] == r[i - 1]; }
    }
  }

  /** A lower bound of `x` and of every row of `s` is a lower bound of
      every row of a rearrangement of `s` with `x` added. */
  lemma LowerBoundOfPermutation(lo: string, x: CourseView, s: seq<CourseView>, r: seq<CourseView>)
    requires TitleLe(lo, x.title)
    requires forall j :: 0 <= j < |s| ==> TitleLe(lo, s[j].title)
    requires multiset(r) == multiset(s) + multiset{x}
    ensures forall k :: 0 <= k < |r| ==> TitleLe(lo, r[k].title)
  {
    forall k | 0 <= k < |r|
      ensures TitleLe(lo, r[k].title)
    {
      var v := r[k];
      assert v in multiset(r);
      if v != x {
        assert v in multiset(s);
        assert v in s;
      }
    }
  }

  /** The rows in title order; rows with equal titles keep their table order. */
  function SortByTitle(s: seq<CourseView>): (r: seq<CourseView>)
    ensures SortedByTitle(r)
    ensures multiset(r) == multiset(s)
    ensures |r| == |s|
  {
    if s == [] then []
    else
      assert s == [s[0]] + s[1..];
      InsertByTitle(s[0], SortByTitle(s[1..]))
  }

  /** Rows already in title order are left as they are. */
  lemma {:induction false} SortSortedIsIdentity(s: seq<CourseView>)
    requires SortedByTitle(s)
    ensures SortByTitle(s) == s
  {
    if s != [] {
      SortSortedIsIdentity(s[1..]);
      assert SortByTitle(s[1..]) == s[1..];
      if |s| > 1 {
        assert TitleLe(s[0].title, s[1].title);
      }
    }
  }
}

=== FILE: validation.dfy ===
/** The checks the calculator runs before it posts a submission. */
module Validation {

  import opened Wrappers
  import opened Text
  import opened JsNumber
  import opened Scales
  import opened Client

  /** The message `validate()` would show, one per rule. */
  datatype Problem =
    | NameMissing      // "Please enter student name"
    | NoCourses        // "Add at least one course"
    | TitleMissing     // "Every course needs a title"
    | UnitNotPositive  // "Units must be > 0"
    | ScoreOutOfRange  // "Scores must be 0–100"

  /** The rules that are about one row. */
  predicate IsRowProblem(p: Problem) {
    p.TitleMissing? || p.UnitNotPositive? || p.ScoreOutOfRange?
  }

  /** The first check a single row fails, in the order title, unit, score. */
  function CourseProblem(c: Course): (p: Option<Problem>)
    ensures p.None? <==> !IsBlank(c.title) && IsPositive(c.unit) && InPercentRange(c.score)
    ensures p.Some? ==> IsRowProblem(p.value)
    ensures p == Some(TitleMissing) <==> IsBlank(c.title)
    ensures p == Some(UnitNotPositive) <==> !IsBlank(c.title) && !IsPositive(c.unit)
    ensures p == Some(ScoreOutOfRange) <==> !IsBlank(c.title) && IsPositive(c.unit) && !InPercentRange(c.score)
  {
    TrimEmptyIffBlank(c.title);
    if Trim(c.title) == [] then Some(TitleMissing)
    else if !IsPositive(c.unit) then Some(UnitNotPositive)
    else if !InPercentRange(c.score) then Some(ScoreOutOfRange)
    else None
  }

  /** The state passes every rule. */
  predicate Valid(st: State) {
    && !IsBlank(st.studentName)
    && |st.courses| > 0
    && forall i :: 0 <= i < |st.courses| ==> CourseProblem(st.courses[i]).None?
  }

  /** Row `i` is the first row that fails a check. */
  ghost predicate FirstBadRow(cs: seq<Course>, i: int) {
    && 0 <= i < |cs|
    && CourseProblem(cs[i]).Some?
    && forall j :: 0 <= j < i ==> CourseProblem(cs[j]).None?
  }

  /** `validate()`: the name first, then that there is a row, then each row in
      order; the first failing rule is reported and `None` means the state
      may be posted. */
  method Validate(st: State) returns (r: Option<Problem>)
    ensures r.None? <==> Valid(st)
    ensures r == Some(NameMissing) <==> IsBlank(st.studentName)
    ensures r == Some(NoCourses) <==> !IsBlank(st.studentName) && |st.courses| == 0
    ensures r.Some? && IsRowProblem(r.value) ==>
      !IsBlank(st.studentName) &&
      exists i :: FirstBadRow(st.courses, i) && r == CourseProblem(st.courses[i])
  {
    TrimEmptyIffBlank(st.studentName);
    if Trim(st.studentName) == [] {
      assert !Valid(st);
      return Some(NameMissing);
    }
    if |st.courses| == 0 {
      assert !Valid(st);
      return Some(NoCourses);
    }
    var i := 0;
    while i < |st.courses|
      invariant 0 <= i <= |st.courses|
      invariant forall j :: 0 <= j < i ==> CourseProblem(st.courses[j]).None?
    {
      var p := CourseProblem(st.courses[i]);
      if p.Some? {
        assert FirstBadRow(st.courses, i);
        assert !Valid(st);
        assert IsRowProblem(p.value);
        return p;
      }
      i := i + 1;
    }
    assert Valid(st);
    return None;
  }

  /** A reset page is never ready to post: its name is empty. */
  lemma ResetAllNotValid(freshId: string)
    ensures IsBlank(ResetAll(freshId).studentName)
    ensures !Valid(ResetAll(freshId))
  {
  }

  /** Rows that pass validation are posted with their numbers unchanged. */
  lemma {:induction false} ValidStateSerializesExactly(st: State)
    requires Valid(st)
    ensures forall i :: 0 <= i < |st.courses| ==>
      && SerializeState(st).courses[i].unit == st.courses[i].unit
      && SerializeState(st).courses[i].score == st.courses[i].score
      && st.courses[i].score.Finite?
  {
    forall i | 0 <= i < |st.courses|
      ensures SerializeState(st).courses[i].unit == st.courses[i].unit
      ensures SerializeState(st).courses[i].score == st.courses[i].score
      ensures st.courses[i].score.Finite?
    {
      assert CourseProblem(st.courses[i]).None?;
    }
  }
}

=== FILE: wrappers.dfy ===
/** The optional value shared by the whole model. */
module Wrappers {

  /** A value that may be absent: a missing field, a SQL NULL, a lookup miss. */
  datatype Option<+T> = None | Some(value: T) {

    /** The value, or `default` when there is none. */
    function GetOr(default: T): T {
      match this
      case Some(v) => v
      case None => default
    }
  }
}
